=== FILE: README.md ===
# CBOW data pipeline — a Dafny model

This project models the data pipeline of `CBOW.py`, a word2vec
continuous-bag-of-words training script. The pipeline has five stages:

1. `data_preprocess` turns the text8 corpus into tokens: strip, lower-case,
   split on `" "`.
2. `build_dict` counts the tokens and sorts the words by descending
   frequency, stably. It then gives them dense ids `0, 1, 2, ...` in that
   order. The result is three dictionaries: `word2id_freq`, `word2id_dict`
   and `id2word_dict`.
3. The encoding loop replaces every token by its id.
4. `build_data` slides a window of width `2*bag_size+1` over the ids. Each
   window yields one positive triple `(span, center, 1)`, then
   `negative_sample_num` negative triples `(span, r, 0)`. Each `r` is drawn
   with `random.randint(0, vocab_size-1)` until it differs from the center.
5. `build_batch` shuffles the dataset once per epoch. It cuts the rows into
   mini-batches of `batch_size` rows, holding spans, targets and labels
   column by column, and flushes the remainder at the end.

Every stage is a pure function over sequences and maps. Each one comes with
the property it is meant to have:

- splitting is the inverse of joining;
- the dictionaries are inverse to each other and ranked by frequency;
- encoding followed by decoding gives the corpus back;
- each generated triple is read back as words of the text;
- the batches, put back together, are the shuffled epochs in order.

Module `Pipeline` puts the stages together with the script's constants:
`bag_size=3`, `negative_sample_num=4`, `batch_size=512` and `epoch_num=3`.

Randomness comes in as data:

- `randint` is a finite stream of draws, each below `vocab_size`. A stream
  that runs out while a window still needs negatives gives `None`. `None`
  stands for a rejection loop that is still drawing.
- `random.shuffle` is CPython's Fisher–Yates walk. For `i` from `n-1` down
  to `1` it draws `j = randbelow(i+1)` and swaps `i` and `j`. The draws are
  given, one sequence per epoch.

Files:

- `common.dfy`: `Option`, `Result`, `Concat`.
- `tokenizer.dfy`: `data_preprocess`.
- `word_count.dfy`: the counting pass of `build_dict`.
- `frequency_sort.dfy`: its stable sort.
- `vocabulary.dfy`: id assignment and the dictionaries.
- `encoder.dfy`: the encoding loop.
- `example_gen.dfy`: `build_data`.
- `shuffle.dfy`: `random.shuffle`.
- `batcher.dfy`: `build_batch`.
- `pipeline.dfy`: the stages composed.

The script checks none of its inputs, and the only exception it can raise
is `KeyError` (CBOW.py:106):

- An empty corpus gives empty dictionaries. A tokenized text is never an
  empty list anyway: whitespace-only text gives `[""]`.
- A `batch_size` below 1 is not rejected. No buffer ever has that many rows,
  so everything comes out as one final batch.
- A corpus shorter than `2*bag_size+1` tokens is not rejected. No window
  fits, and the dataset is empty. With `bag_size = 0` every token is a
  window whose span is empty, and the dataset has
  `len(data)*(1+negative_sample_num)` triples.
- A token missing from `word2id_dict` during encoding raises `KeyError`.
  `Encoder.Encode` returns `Failure(token)` for the first such token.

## Model

| member | source | states |
|---|---|---|
| Tokenizer.StripStart | CBOW.py:58 | `lstrip`: the result is a suffix of the text, everything removed is whitespace, and it does not start with whitespace |
| Tokenizer.StripEnd | CBOW.py:58 | `rstrip`: the result is a prefix of the text, everything removed is whitespace, and it does not end with whitespace |
| Tokenizer.Strip | CBOW.py:58 | `strip()` never lengthens the text and leaves it neither starting nor ending with whitespace |
| Tokenizer.StripSpec | CBOW.py:58 | the stripped text is one contiguous slice of the input; everything cut off on either side is whitespace |
| Tokenizer.LowerChar | CBOW.py:58 | one character lower-cased: never upper-case, unchanged exactly when it was not upper-case, whitespace stays whitespace |
| Tokenizer.Lower | CBOW.py:58 | `lower()` keeps the length, leaves no upper-case letter, keeps every space where it was, and leaves every character that was not upper-case as it was |
| Tokenizer.LowerIdempotent | CBOW.py:58 | lower-casing leaves a text unchanged exactly when it has no upper-case letter, so lower-casing twice equals lower-casing once |
| Tokenizer.LowerKeepsSpaceCount | CBOW.py:58 | lower-casing keeps the number of spaces |
| Tokenizer.Split | CBOW.py:59 | `split(" ")` is inverted by `" ".join`; no piece contains a space; there is one more piece than spaces |
| Tokenizer.SplitJoin | CBOW.py:59 | `" ".join` is inverted by `split(" ")` for any non-empty list of pieces without spaces |
| Tokenizer.Tokenize | CBOW.py:55-60 | the tokens joined by single spaces are the stripped, lower-cased text; no token holds a space or an upper-case letter; the token count is the number of spaces plus one |
| WordCount.IndexOfWord | CBOW.py:73 | the membership test `word not in word_freq_dict`: the index of the entry holding the word, with no earlier entry holding it, or the length when there is none |
| WordCount.Bump | CBOW.py:73-75 | one iteration is `d[w] = d.get(w, 0) + 1`: afterwards `w` has an entry holding one more than before (1 when it had none); an entry is appended only when `w` had none; every other entry keeps its word, count and place; keys stay unique |
| WordCount.Tally | CBOW.py:71-75 | the counting dictionary's keys are unique, and each is a word of the corpus |
| WordCount.TallyKeys | CBOW.py:71-75 | the counting dictionary has one key per distinct corpus word and no other |
| WordCount.TallyCounts | CBOW.py:71-75 | each key's value is the number of occurrences of the word in the corpus |
| WordCount.TallyOrder | CBOW.py:71-75 | the dictionary iterates its keys in the order in which the words are first seen |
| WordCount.TallySpec | CBOW.py:71-75 | the counting loop's result: distinct keys, exactly the corpus words, true counts, first-seen order |
| FrequencySort.Insert | CBOW.py:78 | one insertion step of the sort adds exactly the one entry |
| FrequencySort.SortByCount | CBOW.py:78 | `sorted(...)` returns a rearrangement of its input |
| FrequencySort.InsertOrdered | CBOW.py:78 | inserting an entry that came earlier in the input than all sorted entries keeps the list stably sorted |
| FrequencySort.SortSuffixOrdered | CBOW.py:78 | sorting any suffix of a repetition-free input gives a stably sorted list |
| FrequencySort.SortByCountSpec | CBOW.py:78 | `sorted(key=count, reverse=True)` is a permutation, counts never increase, and equal counts keep their input order |
| Vocabulary.Assign | CBOW.py:87-91 | the id loop gives an id to every word of the sorted list and to no other word |
| Vocabulary.AssignSpec | CBOW.py:87-91 | with distinct words, the k-th entry of the sorted list gets id k in all three dictionaries, and there are no other ids |
| Vocabulary.SortedTally | CBOW.py:71-78 | the sorted counts list every corpus word once, with its count, higher counts first and ties by first occurrence |
| Vocabulary.BuildDict | CBOW.py:69-92 | `build_dict` returns `word2id_dict` keyed by exactly the corpus words, `id2word_dict` its inverse over ids `0..N-1`, and `word2id_freq[k]` the count of word k; a smaller id means a higher count, or the same count and an earlier first occurrence |
| Vocabulary.BuildDictFrequencies | CBOW.py:84-91 | `word2id_freq` has the same ids as `id2word_dict`, holds each word's count, never increases with the id, and breaks ties by first occurrence |
| Vocabulary.VocabSizeIsWordCount | CBOW.py:94 | `vocab_size = len(word2id_freq)` is the number of distinct corpus words and the size of both other dictionaries, and the keys of `word2id_dict` are the corpus words |
| Encoder.Encode | CBOW.py:104-107 | encoding succeeds exactly when every token has an id, and then `data[k]` is `word2id_dict[corpus[k]]` for every k; otherwise it fails on the first token without one (the `KeyError`) |
| Encoder.EncodeDecode | CBOW.py:104-107 | with dictionaries that map every word to an id and back, decoding the encoded corpus gives the corpus |
| Encoder.EncodeWithOwnVocabulary | CBOW.py:104-107 | encoding with the dictionary built from the same corpus never fails; each id is below `vocab_size` and names its token |
| ExampleGen.Accepted | CBOW.py:139 | the draws that pass the test `negative_word != positive_word` are never the positive word and are no more than the draws |
| ExampleGen.AcceptedCount | CBOW.py:137-143 | every draw is accepted except those equal to the positive word |
| ExampleGen.AcceptedValid | CBOW.py:138-139 | accepted draws are in `randint(0, vocab_size-1)`'s range |
| ExampleGen.SampleNegatives | CBOW.py:136-143 | a finished rejection loop returns exactly `negative_sample_num` negatives and consumes no more draws than there are |
| ExampleGen.SampleNegativesNone | CBOW.py:136-143 | the loop does not finish exactly when the stream holds fewer acceptable draws than needed |
| ExampleGen.SampleNegativesSome | CBOW.py:136-143 | when it finishes, the negatives are the accepted draws of the consumed prefix, in order, and the loop stops right after the last one |
| ExampleGen.Span | CBOW.py:124-126 | the span has `2*bag_size` ids: the `bag_size` before the center and the `bag_size` after it, never the center |
| ExampleGen.Triples | CBOW.py:131-143 | a window yields one triple more than its negatives |
| ExampleGen.Windows | CBOW.py:122-143 | a finished run leaves unused exactly the draws that follow the ones it consumed |
| ExampleGen.WindowsSpec | CBOW.py:122-143 | a finished run of the loop emits, for each window in order, the positive triple and then the negative ones, and leaves a suffix of the draws unused |
| ExampleGen.WindowsWithoutNegatives | CBOW.py:136-137 | with `negative_sample_num = 0` no draw is needed and the generator always finishes |
| ExampleGen.AllAccepted | CBOW.py:139 | when no draw is the positive word, the rejection test lets every draw through |
| ExampleGen.SampleWithoutCollisions | CBOW.py:136-143 | when no draw is the positive word, the rejection loop takes exactly the first `negative_sample_num` draws |
| ExampleGen.WindowsFinish | CBOW.py:122-143 | from any window on, the loop finishes when the stream holds `negative_sample_num` draws per remaining window and no draw is a word of `data` |
| ExampleGen.WindowsNeedDraws | CBOW.py:122-143 | from any window on, a finished run had at least `negative_sample_num` draws per remaining window |
| ExampleGen.BuildData | CBOW.py:118-144 | with `negative_sample_num = 0` it always finishes; a finished run had at least `negative_sample_num` draws per window |
| ExampleGen.BuildDataFinishes | CBOW.py:118-144 | `build_data` finishes only with at least `negative_sample_num * max(0, len(data)-2*bag_size)` draws; when no draw is a word of `data`, it finishes exactly then |
| ExampleGen.BuildDataLength | CBOW.py:118-144 | the dataset has `(1+negative_sample_num) * max(0, len(data)-2*bag_size)` triples |
| ExampleGen.BuildDataSpec | CBOW.py:118-144 | triple p belongs to window `p / (1+neg)`, carries that window's span, and is the center with label 1 at place 0 and otherwise another vocabulary id with label 0 |
| ExampleGen.ZeroBagEveryToken | CBOW.py:122-131 | with `bag_size = 0` every token is a window: the dataset has `len(data)*(1+negative_sample_num)` triples, every span is empty, and window w's positive triple targets token w |
| ExampleGen.OneWordVocabularyNeverFinishes | CBOW.py:136-143 | with `vocab_size == 1` and at least one negative per window, the rejection loop of the first window never ends |
| RandomShuffle.Swap | CBOW.py:165 | a step of the shuffle exchanges positions i and j and leaves the rest |
| RandomShuffle.Steps | CBOW.py:165 | the Fisher–Yates walk keeps the length and every element's number of occurrences |
| RandomShuffle.StepsKeepTail | CBOW.py:165 | positions the walk has already filled are never touched again |
| RandomShuffle.Shuffle | CBOW.py:165 | `random.shuffle` rearranges the list; its last element is the one the first draw picks |
| RandomShuffle.ShuffleCanKeepOrder | CBOW.py:165 | the draws `j = i` at every step leave the list as it was |
| Batcher.ToBatch | CBOW.py:168-170 | the buffers hold each row's span, `[target]` and label, at the row's position |
| Batcher.ColumnsRoundTrip | CBOW.py:168-176 | going from rows to columns and back gives the rows, and from well-shaped columns to rows and back gives the columns |
| Batcher.Feed | CBOW.py:166-179 | every group one epoch's inner loop yields holds exactly `batch_size` rows; with `batch_size < 1` it yields nothing and every row stays buffered |
| Batcher.FeedSpec | CBOW.py:166-179 | one epoch's inner loop: the yielded rows followed by what stays buffered are the earlier buffer followed by the epoch's rows; every yield is full and the buffer stays below `batch_size` |
| Batcher.EpochOrders | CBOW.py:163-165 | each epoch's order is a rearrangement of the dataset |
| Batcher.Epochs | CBOW.py:163-179 | every group yielded across the epochs is full, none is yielded with `batch_size < 1`, and the dataset ends as a rearrangement of itself |
| Batcher.EpochsSpec | CBOW.py:163-179 | across epochs the yielded rows and the final buffer are every epoch's rows in order, in full groups; the dataset ends in the last epoch's order |
| Batcher.EpochOrdersSize | CBOW.py:163-166 | the epochs go through `epoch_num * len(dataset)` rows |
| Batcher.EpochOrdersCounts | CBOW.py:163-166 | each triple of the dataset goes through training `epoch_num` times |
| Batcher.Chunk | CBOW.py:175-182 | cutting into groups of `batch_size`: every group is non-empty and at most `batch_size`, and all but the last are full |
| Batcher.ChunkConcat | CBOW.py:175-182 | the groups put together are the rows |
| Batcher.ChunkCount | CBOW.py:175-182 | there are `ceil(rows / batch_size)` groups |
| Batcher.ChunkUnique | CBOW.py:175-182 | full groups followed by a shorter, non-empty remainder are exactly the chunking of their concatenation |
| Batcher.ToBatches | CBOW.py:175-182 | each yielded batch holds exactly the rows of its group, in order |
| Batcher.BuildBatch | CBOW.py:156-182 | with `batch_size >= 1` the batches hold all epochs' rows, in each epoch's order, cut into consecutive groups of `batch_size`, the last holding the rest; the dataset ends as a rearrangement of itself |
| Batcher.BuildBatchSpec | CBOW.py:156-182 | `build_batch` yields all epochs' rows cut into consecutive batches of `batch_size`, the last holding the rest; with `batch_size < 1`, one batch of everything; the dataset ends as a rearrangement of itself |
| Batcher.BatchSizes | CBOW.py:175-182 | with `batch_size >= 1`, the batches put together are all epochs' rows, and each batch holds 1 to `batch_size` rows, all but the last exactly `batch_size` |
| Pipeline.Prepare | CBOW.py:61-107 | the script's corpus is the tokenized text and its dictionaries are those of `build_dict`; `data` holds one id below `vocab_size` per token, naming that token |
| Pipeline.Dataset | CBOW.py:118-146 | with one id per token, the dataset has five triples per window: `5 * max(0, N-6)` for N tokens |
| Pipeline.VocabularyInjective | CBOW.py:83-94 | no two ids of `id2word_dict` name the same word, and every id below `vocab_size` is present |
| Pipeline.SpanWords | CBOW.py:124-126 | a window's span decodes to the `bag_size` tokens on either side of its center |
| Pipeline.RowWords | CBOW.py:124-143 | a generated triple decodes to its window's context words and, for label 1, the center token, otherwise a different word |
| Pipeline.DatasetReadsBack | CBOW.py:118-144 | with ids that decode to the corpus through an injective `id2word_dict`, every triple of `build_data(..., 3, 4)` reads back as the six context words of its window with its center word (label 1) or another word (label 0) |
| Pipeline.DatasetWords | CBOW.py:118-146 | read back through `id2word_dict`, the triples of `dataset` are the context words of each window with its center word (label 1) or another word (label 0) |
| Pipeline.RunPipeline | CBOW.py:146-182 | the batches exist exactly when the dataset could be generated |
| Pipeline.RunPipelineSpec | CBOW.py:275-276 | with `batch_size=512` and `epoch_num=3`, training sees `3 * 5 * max(0, N-6)` rows for N tokens, in batches of 512 except the last (1 to 512), which together are the three shuffled orders of the dataset |

## Left out

- Downloading and reading text8 (`download`, `load_text8`): file and network I/O. The text is a parameter.
- The `CBOW` network class, `get_similar_tokens` and the training loop: floating point and the Paddle framework.
- The `print` calls after each stage: output only.
- Tokenizer.Strip: Python's `str.strip()` is Unicode-aware. Whitespace here is only the ASCII part of `str.isspace()`.
- Tokenizer.Lower: Python's `str.lower()` is Unicode-aware. Lower-casing here maps only `A`–`Z`.
- ExampleGen.BuildData: the `word2id_dict` and `word2id_freq` parameters are unused by the source and are not modelled.
- ExampleGen.BuildDataSpec: it states the dataset's layout only when the global `corpus` has the length of `data`, as it does in the script. `Windows` itself models the `range(len(corpus))` bound in general.
- ExampleGen.BuildData: with `vocab_size == 0`, `random.randint(0, -1)` raises `ValueError` (CBOW.py:138). The model has no draw to offer, so the stream is empty and a window that needs negatives gives `None`. In the script this cannot happen: a window needs tokens, and every token is in the vocabulary.
- ExampleGen.Windows: the line `i = 0` before the sampling loop rebinds the `for` variable. `range` resets it on the next iteration, so it has no effect and is not modelled.
- ExampleGen.SampleNegatives: the draw stream is finite. `None` stands for the source's loop that would keep drawing; how likely that is, is not modelled.
- RandomShuffle.Shuffle: `randbelow`'s draws are parameters, with only their range constrained. The Mersenne Twister and the distribution of the outcome are not modelled.
- Batcher.BuildBatch: the generator is modelled as the list of everything it yields, not as lazy evaluation. The `int64`/`float32` conversions of `np.array(...).astype(...)` are not modelled; ids and labels stay natural numbers.
- ExampleGen.BuildData: `bag_size` and `negative_sample_num` are naturals, and so is `epoch_num` in `Batcher.BuildBatch`. A negative `negative_sample_num` or `epoch_num` behaves in the script like 0. A negative `bag_size` makes Python's slices wrap around and is not modelled.

=== FILE: batcher.dfy ===
/**
 * The mini-batch generator `build_batch` (CBOW.py:156-182). For each of
 * `epoch_num` epochs the dataset is shuffled in place and its triples are
 * appended, column by column, to three buffers; a batch is yielded (and the
 * buffers emptied) whenever the buffers hold exactly `batch_size` rows.
 * After the last epoch a non-empty remainder is yielded as a final, shorter
 * batch. The buffers carry over from one epoch to the next.
 *
 * The generator is modelled as the list of everything it yields. Rows are
 * buffered as triples and turned into the three columns when a batch is
 * yielded; `ToBatch` and `Rows` show that nothing is lost by doing so.
 */
module Batcher {
  import opened Common
  import opened ExampleGen
  import opened RandomShuffle

  /** One yielded batch: the span column (an `int64` matrix), the target
      column with one target per row (`[target_word]`, an `int64` matrix of
      width 1) and the label column (`float32`, 0 or 1). */
  datatype Batch = Batch(spans: seq<seq<nat>>, targets: seq<seq<nat>>, labels: seq<nat>)

  /** The three columns of the buffered rows (CBOW.py:168-170). */
  function ToBatch(rows: seq<Example>): (b: Batch)
    ensures |b.spans| == |rows| && |b.targets| == |rows| && |b.labels| == |rows|
    ensures forall k :: 0 <= k < |rows| ==>
      b.spans[k] == rows[k].span && b.targets[k] == [rows[k].target] && b.labels[k] == rows[k].labelValue
  {
    Batch(seq(|rows|, k requires 0 <= k < |rows| => rows[k].span),
          seq(|rows|, k requires 0 <= k < |rows| => [rows[k].target]),
          seq(|rows|, k requires 0 <= k < |rows| => rows[k].labelValue))
  }

  /** Three columns of one length, with one target per row. */
  predicate WellShaped(b: Batch)
  {
    && |b.spans| == |b.targets| == |b.labels|
    && forall k :: 0 <= k < |b.targets| ==> |b.targets[k]| == 1
  }

  /** Reads the rows back out of the columns. */
  function Rows(b: Batch): (rows: seq<Example>)
    requires WellShaped(b)
    ensures |rows| == |b.labels|
  {
    seq(|b.labels|, k requires 0 <= k < |b.labels| => Example(b.spans[k], b.targets[k][0], b.labels[k]))
  }

  /** Columns to rows and back, and rows to columns and back, are the
      identity: a batch holds exactly the rows that were buffered, in
      order. */
  lemma ColumnsRoundTrip(rows: seq<Example>, b: Batch)
    requires WellShaped(b)
    ensures WellShaped(ToBatch(rows)) && Rows(ToBatch(rows)) == rows
    ensures ToBatch(Rows(b)) == b
  {
    var b' := ToBatch(Rows(b));
    assert b'.spans == b.spans;
    assert b'.labels == b.labels;
    forall k | 0 <= k < |b.targets|
      ensures b'.targets[k] == b.targets[k]
    {
      assert b.targets[k] == [b.targets[k][0]];
    }
  }

  /** The inner loop over one epoch's dataset (CBOW.py:166-179), starting
      with `buf` in the buffers: the groups of rows it yields and the rows
      left in the buffers. `batch_size` is not checked by the source: when
      it is below 1 the buffer never has exactly that many rows and
      nothing is yielded and every row stays buffered. Every group it
      yields has exactly `batch_size` rows. */
  function Feed(buf: seq<Example>, items: seq<Example>, batchSize: int): (r: (seq<seq<Example>>, seq<Example>))
    ensures forall k :: 0 <= k < |r.0| ==> |r.0[k]| == batchSize
    ensures batchSize < 1 ==> r == ([], buf + items)
    decreases |items|
  {
    if |items| == 0 then
      assert buf + items == buf;
      ([], buf)
    else
      var full := buf + [items[0]];
      assert full + items[1..] == buf + items;
      if |full| == batchSize then
        var (groups, rest) := Feed([], items[1..], batchSize);
        ([full] + groups, rest)
      else Feed(full, items[1..], batchSize)
  }

  /** Every group of `groups` has exactly `batchSize` rows. */
  ghost predicate FullGroups(groups: seq<seq<Example>>, batchSize: int)
  {
    forall k :: 0 <= k < |groups| ==> |groups[k]| == batchSize
  }

  /** What one epoch does to the buffers: the rows yielded followed by the
      rows still buffered are the rows buffered before followed by the
      epoch's rows; every yielded group is full and the buffer stays below
      a batch. With `batch_size < 1` nothing is yielded. */
  lemma {:induction false} FeedSpec(buf: seq<Example>, items: seq<Example>, batchSize: int)
    requires batchSize >= 1 ==> |buf| < batchSize
    ensures var (groups, rest) := Feed(buf, items, batchSize);
      && Concat(groups) + rest == buf + items
      && FullGroups(groups, batchSize)
      && (batchSize >= 1 ==> |rest| < batchSize)
      && (batchSize < 1 ==> groups == [])
    decreases |items|
  {
    if |items| > 0 {
      var full := buf + [items[0]];
      assert buf + items == full + items[1..];
      if |full| == batchSize {
        FeedSpec([], items[1..], batchSize);
        var (groups, rest) := Feed([], items[1..], batchSize);
        assert Feed(buf, items, batchSize) == ([full] + groups, rest);
        assert Concat([full] + groups) == full + Concat(groups);
        assert Concat([full] + groups) + rest == full + (Concat(groups) + rest);
      } else {
        FeedSpec(full, items[1..], batchSize);
      }
    }
  }

  /** The order of the dataset in each epoch: every epoch shuffles the
      order the previous one left (CBOW.py:163-165). */
  function EpochOrders(ds: seq<Example>, shuffles: seq<seq<nat>>): (orders: seq<seq<Example>>)
    requires forall e :: 0 <= e < |shuffles| ==> ShuffleDraws(|ds|, shuffles[e])
    ensures |orders| == |shuffles|
    ensures forall e :: 0 <= e < |orders| ==> multiset(orders[e]) == multiset(ds) && |orders[e]| == |ds|
    decreases |shuffles|
  {
    if |shuffles| == 0 then []
    else
      var next := Shuffle(ds, shuffles[0]);
      [next] + EpochOrders(next, shuffles[1..])
  }

  /** The dataset's order after the epochs: the last epoch's order, or the
      order it came in when there are no epochs. */
  function FinalOrder(ds: seq<Example>, shuffles: seq<seq<nat>>): (r: seq<Example>)
    requires forall e :: 0 <= e < |shuffles| ==> ShuffleDraws(|ds|, shuffles[e])
    ensures multiset(r) == multiset(ds)
  {
    if |shuffles| == 0 then ds else EpochOrders(ds, shuffles)[|shuffles| - 1]
  }

  /** The epoch loop (CBOW.py:163-179) from buffers `buf` on: the groups
      yielded, the rows left in the buffers, and the dataset as the last
      in-place shuffle leaves it, a rearrangement of the dataset. Every
      group yielded is full, and with `batch_size < 1` none is. */
  function Epochs(ds: seq<Example>, shuffles: seq<seq<nat>>, buf: seq<Example>, batchSize: int)
    : (r: (seq<seq<Example>>, seq<Example>, seq<Example>))
    requires forall e :: 0 <= e < |shuffles| ==> ShuffleDraws(|ds|, shuffles[e])
    ensures forall k :: 0 <= k < |r.0| ==> |r.0[k]| == batchSize
    ensures batchSize < 1 ==> r.0 == []
    ensures multiset(r.2) == multiset(ds)
    decreases |shuffles|
  {
    if |shuffles| == 0 then ([], buf, ds)
    else
      var next := Shuffle(ds, shuffles[0]);
      var (groups, rest) := Feed(buf, next, batchSize);
      var (later, left, final) := Epochs(next, shuffles[1..], rest, batchSize);
      (groups + later, left, final)
  }

  /** The epoch loop yields the rows of every epoch, in each epoch's order,
      in full groups, and leaves the dataset in its last order. */
  lemma {:induction false} EpochsSpec(ds: seq<Example>, shuffles: seq<seq<nat>>, buf: seq<Example>, batchSize: int)
    requires forall e :: 0 <= e < |shuffles| ==> ShuffleDraws(|ds|, shuffles[e])
    requires batchSize >= 1 ==> |buf| < batchSize
    ensures var (groups, left, final) := Epochs(ds, shuffles, buf, batchSize);
      && Concat(groups) + left == buf + Concat(EpochOrders(ds, shuffles))
      && FullGroups(groups, batchSize)
      && (batchSize >= 1 ==> |left| < batchSize)
      && (batchSize < 1 ==> groups == [])
      && final == FinalOrder(ds, shuffles)
    decreases |shuffles|
  {
    if |shuffles| > 0 {
      var next := Shuffle(ds, shuffles[0]);
      FeedSpec(buf, next, batchSize);
      var (groups, rest) := Feed(buf, next, batchSize);
      EpochsSpec(next, shuffles[1..], rest, batchSize);
      var (later, left, final) := Epochs(next, shuffles[1..], rest, batchSize);
      assert Epochs(ds, shuffles, buf, batchSize) == (groups + later, left, final);
      var orders := EpochOrders(ds, shuffles);
      var laterOrders := EpochOrders(next, shuffles[1..]);
      assert orders == [next] + laterOrders;
      EpochsJoin(buf, next, groups, rest, later, left, Concat(laterOrders));
      assert Concat(orders) == next + Concat(laterOrders);
      if |shuffles| > 1 {
        assert orders[|shuffles| - 1] == laterOrders[|shuffles| - 2];
      }
    }
  }

  /** The rows of one epoch and those of the later ones, glued through the
      buffer left in between. */
  lemma EpochsJoin(buf: seq<Example>, next: seq<Example>, groups: seq<seq<Example>>, rest: seq<Example>,
                   later: seq<seq<Example>>, left: seq<Example>, laterRows: seq<Example>)
    requires Concat(groups) + rest == buf + next
    requires Concat(later) + left == rest + laterRows
    ensures Concat(groups + later) + left == buf + (next + laterRows)
  {
    ConcatAppend(groups, later);
    calc {
      Concat(groups + later) + left;
      Concat(groups) + (Concat(later) + left);
      Concat(groups) + (rest + laterRows);
      (Concat(groups) + rest) + laterRows;
      (buf + next) + laterRows;
    }
  }

  /** Every epoch yields the whole dataset: the epochs together go through
      `epoch_num * len(dataset)` rows. */
  lemma {:induction false} EpochOrdersSize(ds: seq<Example>, shuffles: seq<seq<nat>>)
    requires forall e :: 0 <= e < |shuffles| ==> ShuffleDraws(|ds|, shuffles[e])
    ensures |Concat(EpochOrders(ds, shuffles))| == |shuffles| * |ds|
    decreases |shuffles|
  {
    if |shuffles| > 0 {
      var next := Shuffle(ds, shuffles[0]);
      EpochOrdersSize(next, shuffles[1..]);
      var orders := EpochOrders(ds, shuffles);
      assert orders == [next] + EpochOrders(next, shuffles[1..]);
      assert Concat(orders) == next + Concat(EpochOrders(next, shuffles[1..]));
      assert |shuffles| * |ds| == |ds| + (|shuffles| - 1) * |ds|;
    }
  }

  /** Each triple of the dataset goes through training `epoch_num` times. */
  lemma {:induction false} EpochOrdersCounts(ds: seq<Example>, shuffles: seq<seq<nat>>, x: Example)
    requires forall e :: 0 <= e < |shuffles| ==> ShuffleDraws(|ds|, shuffles[e])
    ensures multiset(Concat(EpochOrders(ds, shuffles)))[x] == |shuffles| * multiset(ds)[x]
    decreases |shuffles|
  {
    if |shuffles| > 0 {
      var next := Shuffle(ds, shuffles[0]);
      EpochOrdersCounts(next, shuffles[1..], x);
      var orders := EpochOrders(ds, shuffles);
      assert orders == [next] + EpochOrders(next, shuffles[1..]);
      assert Concat(orders) == next + Concat(EpochOrders(next, shuffles[1..]));
      assert |shuffles| * multiset(ds)[x] == multiset(ds)[x] + (|shuffles| - 1) * multiset(ds)[x];
    }
  }

  /** The groups to yield: the full groups, then a non-empty remainder
      (CBOW.py:181-182). */
  function WithRemainder(groups: seq<seq<Example>>, left: seq<Example>): seq<seq<Example>>
  {
    if |left| > 0 then groups + [left] else groups
  }

  /** The batches yielded for the buffered groups `groups`, one per group;
      each holds exactly its group's rows. */
  function ToBatches(groups: seq<seq<Example>>): (batches: seq<Batch>)
    ensures BatchRows(batches) == groups
  {
    var batches := seq(|groups|, k requires 0 <= k < |groups| => ToBatch(groups[k]));
    forall k | 0 <= k < |groups|
      ensures BatchRows(batches)[k] == groups[k]
    {
      ColumnsRoundTrip(groups[k], batches[k]);
    }
    batches
  }

  /** `build_batch(dataset, batch_size, epoch_num)` with the draws of each
      epoch's `random.shuffle` given as `shuffles`: every batch it yields,
      and the dataset as the in-place shuffles leave it. With
      `batch_size >= 1` the batches are all epochs' rows, in each epoch's
      order, cut into consecutive groups of `batch_size`; the dataset ends
      as a rearrangement of itself. */
  function BuildBatch(ds: seq<Example>, batchSize: int, epochNum: nat, shuffles: seq<seq<nat>>)
    : (r: (seq<Batch>, seq<Example>))
    requires |shuffles| == epochNum
    requires forall e :: 0 <= e < |shuffles| ==> ShuffleDraws(|ds|, shuffles[e])
    ensures batchSize >= 1 ==> BatchRows(r.0) == Chunk(Concat(EpochOrders(ds, shuffles)), batchSize)
    ensures multiset(r.1) == multiset(ds)
  {
    var (groups, left, final) := Epochs(ds, shuffles, [], batchSize);
    EpochsSpec(ds, shuffles, [], batchSize);
    assert Concat(groups) + left == Concat(EpochOrders(ds, shuffles));
    var yielded := WithRemainder(groups, left);
    if batchSize >= 1 then
      ChunkUnique(groups, left, batchSize);
      (ToBatches(yielded), final)
    else
      (ToBatches(yielded), final)
  }

  /** The rows of each batch. */
  function BatchRows(batches: seq<Batch>): (rows: seq<seq<Example>>)
    ensures |rows| == |batches|
  {
    seq(|batches|, k requires 0 <= k < |batches| =>
      if WellShaped(batches[k]) then Rows(batches[k]) else [])
  }

  /** Cutting `s` into consecutive groups of `size`, the last one possibly
      shorter: the reference for what the batcher yields. */
  function Chunk(s: seq<Example>, size: nat): (groups: seq<seq<Example>>)
    requires size >= 1
    ensures forall k :: 0 <= k < |groups| ==> 0 < |groups[k]| <= size
    ensures forall k :: 0 <= k < |groups| - 1 ==> |groups[k]| == size
    decreases |s|
  {
    if |s| == 0 then []
    else if |s| <= size then [s]
    else [s[..size]] + Chunk(s[size..], size)
  }

  /** The groups of `Chunk` put back together are `s`. */
  lemma {:induction false} ChunkConcat(s: seq<Example>, size: nat)
    requires size >= 1
    ensures Concat(Chunk(s, size)) == s
    decreases |s|
  {
    if |s| == 0 {
    } else if |s| <= size {
      assert Concat([s]) == s + Concat([s][1..]);
    } else {
      ChunkConcat(s[size..], size);
      assert s == s[..size] + s[size..];
      var rest := Chunk(s[size..], size);
      assert Chunk(s, size) == [s[..size]] + rest;
      assert Concat([s[..size]] + rest) == s[..size] + Concat(rest);
    }
  }

  /** There are `ceil(|s| / size)` groups: the fewest groups of `size` rows
      that hold all of `s`. */
  lemma {:induction false} ChunkCount(s: seq<Example>, size: nat)
    requires size >= 1
    ensures var n := |Chunk(s, size)|; (n - 1) * size < |s| <= n * size
    decreases |s|
  {
    if |s| > size {
      ChunkCount(s[size..], size);
      var n' := |Chunk(s[size..], size)|;
      assert |Chunk(s, size)| == n' + 1;
      assert (n' + 1) * size == n' * size + size;
      assert n' * size == (n' - 1) * size + size;
    }
  }

  /** Full groups followed by a shorter, non-empty remainder are the
      chunking of their concatenation. */
  lemma {:induction false} ChunkUnique(groups: seq<seq<Example>>, left: seq<Example>, size: nat)
    requires size >= 1
    requires FullGroups(groups, size) && |left| < size
    ensures Chunk(Concat(groups) + left, size) == WithRemainder(groups, left)
    decreases |groups|
  {
    var s := Concat(groups) + left;
    if |groups| == 0 {
      assert s == left;
    } else {
      var tail := Concat(groups[1..]) + left;
      assert s == groups[0] + tail;
      ChunkUnique(groups[1..], left, size);
      if |tail| == 0 {
        assert groups[1..] == [] && left == [];
        assert s == groups[0];
      } else {
        assert s[..size] == groups[0] && s[size..] == tail;
        assert WithRemainder(groups, left) == [groups[0]] + WithRemainder(groups[1..], left);
      }
    }
  }

  /** What `build_batch` yields. All epochs' rows, in each epoch's shuffled
      order, are cut into consecutive batches of `batch_size` rows, the
      last one holding what is left (from 1 to `batch_size` rows); with
      `batch_size < 1` everything comes out as one batch at the end. Each
      batch holds its rows column by column. The dataset ends as a
      rearrangement of itself. */
  lemma BuildBatchSpec(ds: seq<Example>, batchSize: int, epochNum: nat, shuffles: seq<seq<nat>>)
    requires |shuffles| == epochNum
    requires forall e :: 0 <= e < |shuffles| ==> ShuffleDraws(|ds|, shuffles[e])
    ensures var (batches, final) := BuildBatch(ds, batchSize, epochNum, shuffles);
      var all := Concat(EpochOrders(ds, shuffles));
      && |all| == epochNum * |ds|
      && (batchSize >= 1 ==> BatchRows(batches) == Chunk(all, batchSize))
      && (batchSize < 1 ==> BatchRows(batches) == if |all| > 0 then [all] else [])
      && final == FinalOrder(ds, shuffles)
      && multiset(final) == multiset(ds)
  {
    var (groups, left, final) := Epochs(ds, shuffles, [], batchSize);
    EpochsSpec(ds, shuffles, [], batchSize);
    EpochOrdersSize(ds, shuffles);
    assert Concat(groups) + left == Concat(EpochOrders(ds, shuffles));
    assert BuildBatch(ds, batchSize, epochNum, shuffles) == (ToBatches(WithRemainder(groups, left)), final);
    if batchSize < 1 {
      assert groups == [];
      assert left == Concat(EpochOrders(ds, shuffles));
    }
  }

  /** With `batch_size >= 1`, the batches put together are all epochs' rows
      in order; every batch holds from 1 to `batch_size` rows, and every
      batch but the last exactly `batch_size`. */
  lemma BatchSizes(ds: seq<Example>, batchSize: int, epochNum: nat, shuffles: seq<seq<nat>>)
    requires batchSize >= 1
    requires |shuffles| == epochNum
    requires forall e :: 0 <= e < |shuffles| ==> ShuffleDraws(|ds|, shuffles[e])
    ensures var rows := BatchRows(BuildBatch(ds, batchSize, epochNum, shuffles).0);
      && Concat(rows) == Concat(EpochOrders(ds, shuffles))
      && |Concat(rows)| == epochNum * |ds|
      && (forall k :: 0 <= k < |rows| ==> 0 < |rows[k]| <= batchSize)
      && (forall k :: 0 <= k < |rows| - 1 ==> |rows[k]| == batchSize)
  {
    BuildBatchSpec(ds, batchSize, epochNum, shuffles);
    ChunkConcat(Concat(EpochOrders(ds, shuffles)), batchSize);
  }
}

=== FILE: common.dfy ===
/**
 * Small shared vocabulary of the model: the optional and error-carrying
 * results the pipeline stages return, and concatenation of a sequence of
 * sequences.
 */
module Common {

  /** A value that may be missing. */
  datatype Option<+T> = None | Some(value: T)

  /** A value or the error that stopped its computation. */
  datatype Result<+T, +E> = Success(value: T) | Failure(error: E)

  /** All the inner sequences of `xss`, one after the other. */
  function Concat<T>(xss: seq<seq<T>>): seq<T>
  {
    if |xss| == 0 then [] else xss[0] + Concat(xss[1..])
  }

  /** Concatenation distributes over appending sequences of sequences. */
  lemma {:induction false} ConcatAppend<T>(a: seq<seq<T>>, b: seq<seq<T>>)
    ensures Concat(a + b) == Concat(a) + Concat(b)
    decreases |a|
  {
    if |a| == 0 {
      assert a + b == b;
    } else {
      assert (a + b)[1..] == a[1..] + b;
      ConcatAppend(a[1..], b);
    }
  }
}

=== FILE: encoder.dfy ===
/**
 * The corpus encoder (CBOW.py:104-107): replace every token by its id,
 * `data.append(word2id_dict[w])` for each token in order. A token missing
 * from the dictionary raises `KeyError` there; here it is a `Failure`
 * carrying that token.
 */
module Encoder {
  import opened Common
  import opened Vocabulary

  /** The encoding loop over `corpus` with the dictionary `wordToId`. It
      succeeds exactly when every token has an id, and then yields, token by
      token, the id `wordToId` gives it; otherwise it stops at the first
      token without one. */
  function Encode(corpus: seq<string>, wordToId: map<string, nat>): (r: Result<seq<nat>, string>)
    ensures r.Success? <==> forall i :: 0 <= i < |corpus| ==> corpus[i] in wordToId
    ensures r.Success? ==> |r.value| == |corpus|
    ensures r.Success? ==> forall k :: 0 <= k < |corpus| ==> r.value[k] == wordToId[corpus[k]]
    ensures r.Failure? ==>
      exists m :: 0 <= m < |corpus| && corpus[m] == r.error && r.error !in wordToId &&
        forall i :: 0 <= i < m ==> corpus[i] in wordToId
  {
    if |corpus| == 0 then Success([])
    else if corpus[0] !in wordToId then Failure(corpus[0])
    else
      match Encode(corpus[1..], wordToId)
      case Failure(w) =>
        var m :| 0 <= m < |corpus[1..]| && corpus[1..][m] == w && w !in wordToId &&
          forall i :: 0 <= i < m ==> corpus[1..][i] in wordToId;
        assert corpus[m + 1] == w;
        assert forall i :: 1 <= i < m + 1 ==> corpus[i] == corpus[1..][i - 1];
        Failure(w)
      case Success(rest) => Success([wordToId[corpus[0]]] + rest)
  }

  /** Maps ids back to words through `id2word_dict`. */
  function Decode(ids: seq<nat>, idToWord: map<nat, string>): (words: seq<string>)
    requires forall k :: 0 <= k < |ids| ==> ids[k] in idToWord
    ensures |words| == |ids|
  {
    if |ids| == 0 then [] else [idToWord[ids[0]]] + Decode(ids[1..], idToWord)
  }

  /** `wordToId` sends every word to an id below `n` that `idToWord` sends
      back to the word. */
  ghost predicate InvertibleBelow(wordToId: map<string, nat>, idToWord: map<nat, string>, n: nat)
  {
    forall w :: w in wordToId ==> wordToId[w] < n && wordToId[w] in idToWord && idToWord[wordToId[w]] == w
  }

  lemma {:induction false} EncodeDecode(corpus: seq<string>, wordToId: map<string, nat>, idToWord: map<nat, string>, n: nat)
    requires forall i :: 0 <= i < |corpus| ==> corpus[i] in wordToId
    requires InvertibleBelow(wordToId, idToWord, n)
    ensures Encode(corpus, wordToId).Success?
    ensures forall k :: 0 <= k < |corpus| ==>
      Encode(corpus, wordToId).value[k] < n && Encode(corpus, wordToId).value[k] in idToWord
    ensures Decode(Encode(corpus, wordToId).value, idToWord) == corpus
    decreases |corpus|
  {
    if |corpus| > 0 {
      EncodeDecode(corpus[1..], wordToId, idToWord, n);
      var data := Encode(corpus, wordToId).value;
      assert data == [wordToId[corpus[0]]] + Encode(corpus[1..], wordToId).value;
      assert data[1..] == Encode(corpus[1..], wordToId).value;
    }
  }

  /** Encoding with the vocabulary `build_dict` made from the same corpus
      never fails; the encoded corpus has one id below the vocabulary size
      per token, and `id2word_dict` maps it back to the corpus token by
      token. */
  lemma {:induction false} EncodeWithOwnVocabulary(corpus: seq<string>, v: Vocab)
    requires IsVocabularyOf(v, corpus)
    ensures Encode(corpus, v.wordToId).Success?
    ensures var data := Encode(corpus, v.wordToId).value;
      && |data| == |corpus|
      && (forall k :: 0 <= k < |data| ==> data[k] < VocabSize(v) && data[k] in v.idToWord)
      && (forall k :: 0 <= k < |data| ==> v.idToWord[data[k]] == corpus[k])
      && Decode(data, v.idToWord) == corpus
  {
    OwnVocabularyInvertible(corpus, v);
    EncodeDecode(corpus, v.wordToId, v.idToWord, VocabSize(v));
    var data := Encode(corpus, v.wordToId).value;
    DecodeAt(data, v.idToWord);
  }

  lemma {:induction false} OwnVocabularyInvertible(corpus: seq<string>, v: Vocab)
    requires IsVocabularyOf(v, corpus)
    ensures InvertibleBelow(v.wordToId, v.idToWord, VocabSize(v))
    ensures forall i :: 0 <= i < |corpus| ==> corpus[i] in v.wordToId
  {
    VocabSizeIsWordCount(v, corpus);
  }

  lemma {:induction false} DecodeAt(ids: seq<nat>, idToWord: map<nat, string>)
    requires forall k :: 0 <= k < |ids| ==> ids[k] in idToWord
    ensures forall k :: 0 <= k < |ids| ==> Decode(ids, idToWord)[k] == idToWord[ids[k]]
    decreases |ids|
  {
    if |ids| > 0 {
      DecodeAt(ids[1..], idToWord);
    }
  }

}

=== FILE: example_gen.dfy ===
/**
 * The training-example generator `build_data` (CBOW.py:118-144). A window
 * of width `2*bag_size+1` slides over the encoded corpus; `i` is the start
 * of the window and `i+bag_size` its center. Each window yields one
 * positive triple `(span, center, 1)` and then `negative_sample_num`
 * negative triples `(span, r, 0)`, where `r` is drawn with
 * `random.randint(0, vocab_size-1)` until it differs from the center.
 *
 * The random draws are an explicit finite stream. The source never runs
 * out of draws; a stream that runs out before all negatives are found
 * makes the model return `None`, which stands for the sampling loop that
 * would still be drawing.
 */
module ExampleGen {
  import opened Common

  /** One `(span, target, label)` triple; `labelValue` is 1 for the center word
      and 0 for a sampled one. */
  datatype Example = Example(span: seq<nat>, target: nat, labelValue: nat)

  /** Every draw is a value `random.randint(0, vocabSize-1)` can return. */
  predicate ValidDraws(draws: seq<nat>, vocabSize: nat)
  {
    forall k :: 0 <= k < |draws| ==> draws[k] < vocabSize
  }

  /** The draws the rejection test `negative_word != positive_word` lets
      through, in order. */
  function Accepted(draws: seq<nat>, positive: nat): (r: seq<nat>)
    ensures |r| <= |draws|
    ensures forall k :: 0 <= k < |r| ==> r[k] != positive
  {
    if |draws| == 0 then []
    else if draws[0] != positive then [draws[0]] + Accepted(draws[1..], positive)
    else Accepted(draws[1..], positive)
  }

  /** Every draw is accepted except those equal to the positive word. */
  lemma {:induction false} AcceptedCount(draws: seq<nat>, positive: nat)
    ensures |Accepted(draws, positive)| == |draws| - multiset(draws)[positive]
    decreases |draws|
  {
    if |draws| > 0 {
      AcceptedCount(draws[1..], positive);
      assert draws == [draws[0]] + draws[1..];
      assert multiset(draws) == multiset{draws[0]} + multiset(draws[1..]);
    }
  }

  /** Accepted draws are draws: they are vocabulary ids. */
  lemma {:induction false} AcceptedValid(draws: seq<nat>, positive: nat, vocabSize: nat)
    requires ValidDraws(draws, vocabSize)
    ensures ValidDraws(Accepted(draws, positive), vocabSize)
    decreases |draws|
  {
    if |draws| > 0 {
      assert ValidDraws(draws[1..], vocabSize);
      AcceptedValid(draws[1..], positive, vocabSize);
    }
  }

  /** The negative-sampling loop (CBOW.py:136-143): draw until `need`
      draws different from `positive` have been found. Returns those draws
      and how many draws were consumed, or `None` when the stream runs out
      first. */
  function SampleNegatives(positive: nat, need: nat, draws: seq<nat>): (r: Option<(seq<nat>, nat)>)
    ensures r.Some? ==> |r.value.0| == need && r.value.1 <= |draws|
    decreases |draws|
  {
    if need == 0 then Some(([], 0))
    else if |draws| == 0 then None
    else
      var accept := draws[0] != positive;
      match SampleNegatives(positive, if accept then need - 1 else need, draws[1..])
      case None => None
      case Some((negs, used)) => Some((if accept then [draws[0]] + negs else negs, used + 1))
  }

  /** The sampler fails exactly when the stream holds fewer than `need`
      acceptable draws. */
  lemma {:induction false} SampleNegativesNone(positive: nat, need: nat, draws: seq<nat>)
    ensures SampleNegatives(positive, need, draws).None? <==> |Accepted(draws, positive)| < need
    decreases |draws|
  {
    if need > 0 && |draws| > 0 {
      var need' := if draws[0] != positive then need - 1 else need;
      SampleNegativesNone(positive, need', draws[1..]);
    }
  }

  /** When the sampler succeeds, the negatives are the accepted draws of the
      consumed prefix, and the last draw consumed is the last negative: the
      sampler stops as soon as it has enough. */
  lemma {:induction false} SampleNegativesSome(positive: nat, need: nat, draws: seq<nat>)
    requires SampleNegatives(positive, need, draws).Some?
    ensures var (negs, used) := SampleNegatives(positive, need, draws).value;
      && negs == Accepted(draws[..used], positive)
      && (need > 0 ==> used > 0 && draws[used - 1] != positive)
    decreases |draws|
  {
    if need > 0 {
      var need' := if draws[0] != positive then need - 1 else need;
      SampleNegativesSome(positive, need', draws[1..]);
      var (negs, used) := SampleNegatives(positive, need', draws[1..]).value;
      assert draws[..used + 1] == [draws[0]] + draws[1..][..used];
      assert used > 0 ==> draws[used] == draws[1..][used - 1];
    }
  }

  /** The context of the window starting at `i` (CBOW.py:124-126):
      `data[i:i+bag] + data[i+bag+1:i+2*bag+1]`. It has `2*bag` ids: the
      `bag` ids before the center and the `bag` ids after it, never the
      center itself. */
  function Span(data: seq<nat>, i: nat, bag: nat): (span: seq<nat>)
    requires i + 2 * bag + 1 <= |data|
    ensures |span| == 2 * bag
    ensures forall t :: 0 <= t < bag ==> span[t] == data[i + t]
    ensures forall t :: bag <= t < 2 * bag ==> span[t] == data[i + t + 1]
  {
    data[i..i + bag] + data[i + bag + 1..i + 2 * bag + 1]
  }

  /** The label-0 triples for the sampled targets `negs`. */
  function Negatives(span: seq<nat>, negs: seq<nat>): seq<Example>
  {
    seq(|negs|, k requires 0 <= k < |negs| => Example(span, negs[k], 0))
  }

  /** The triples of the window starting at `i` (CBOW.py:131-143): the
      positive one, then one negative one per sampled target. */
  function Triples(data: seq<nat>, i: nat, bag: nat, negs: seq<nat>): (r: seq<Example>)
    requires i + 2 * bag + 1 <= |data|
    ensures |r| == 1 + |negs|
  {
    var span := Span(data, i, bag);
    [Example(span, data[i + bag], 1)] + Negatives(span, negs)
  }

  /** The loop of `build_data` from window start `i` on (CBOW.py:122-143);
      `corpusLen` is the length of the global `corpus` the `for` ranges
      over. Returns the triples and the draws left over, which are what
      follows the draws it consumed. */
  function Windows(data: seq<nat>, corpusLen: nat, bag: nat, negNum: nat, i: nat, draws: seq<nat>)
    : (r: Option<(seq<Example>, seq<nat>)>)
    ensures r.Some? ==> |r.value.1| <= |draws| && r.value.1 == draws[|draws| - |r.value.1|..]
    decreases corpusLen - i
  {
    if i >= corpusLen then Some(([], draws))
    else if i <= |data| - 2 * bag - 1 then
      match SampleNegatives(data[i + bag], negNum, draws)
      case None => None
      case Some((negs, used)) =>
        match Windows(data, corpusLen, bag, negNum, i + 1, draws[used..])
        case None => None
        case Some((tail, rest)) => Some((Triples(data, i, bag, negs) + tail, rest))
    else Windows(data, corpusLen, bag, negNum, i + 1, draws)
  }

  /** `build_data(data, ..., bag_size, negative_sample_num)` with the draws
      of `random.randint(0, vocab_size-1)` given as `draws`; the lemmas that
      need the draws in that range say so with `ValidDraws`. The dictionary
      parameters of the source are unused there and left out. Without
      negative samples it always finishes; otherwise it finishes only if the
      stream holds `negative_sample_num` draws for every window. */
  function BuildData(data: seq<nat>, corpusLen: nat, vocabSize: nat, bag: nat, negNum: nat, draws: seq<nat>)
    : (r: Option<(seq<Example>, seq<nat>)>)
    ensures negNum == 0 ==> r.Some?
    ensures r.Some? ==> |draws| >= negNum * WindowsFrom(|data|, corpusLen, bag, 0)
  {
    var r := Windows(data, corpusLen, bag, negNum, 0, draws);
    if r.Some? then
      WindowsNeedDraws(data, corpusLen, bag, negNum, 0, draws);
      r
    else
      WindowsWithoutNegatives(data, corpusLen, bag, 0, draws);
      r
  }

  /** One past the last window start: `i <= len(data)-2*bag-1` and
      `i < len(corpus)`. */
  function WindowEnd(dataLen: nat, corpusLen: nat, bag: nat): int
  {
    if corpusLen < dataLen - 2 * bag then corpusLen else dataLen - 2 * bag
  }

  /** The triples of the window starting at `w`: the positive one for the
      center `data[w+bag]`, then `negNum` negative ones with the same span,
      each target a vocabulary id other than the center. */
  ghost predicate WindowBlock(block: seq<Example>, data: seq<nat>, w: nat, bag: nat, negNum: nat, vocabSize: nat)
  {
    && w + 2 * bag + 1 <= |data|
    && |block| == 1 + negNum
    && block[0] == Example(Span(data, w, bag), data[w + bag], 1)
    && forall j :: 1 <= j < |block| ==>
         && block[j].span == Span(data, w, bag)
         && block[j].labelValue == 0
         && block[j].target < vocabSize
         && block[j].target != data[w + bag]
  }

  /** The k-th group of `stride` triples of `out` is the block of window
      `start + k`. */
  ghost predicate BlockAt(out: seq<Example>, k: nat, stride: nat, data: seq<nat>, start: nat, bag: nat, negNum: nat, vocabSize: nat)
  {
    && (k + 1) * stride <= |out|
    && WindowBlock(out[k * stride..(k + 1) * stride], data, start + k, bag, negNum, vocabSize)
  }

  /** The first `n` groups of `stride` triples of `out` are the blocks of
      windows `start`, `start+1`, ..., and there is nothing after them. */
  ghost predicate Blocks(out: seq<Example>, n: nat, stride: nat, data: seq<nat>, start: nat, bag: nat, negNum: nat, vocabSize: nat)
  {
    && |out| == n * stride
    && forall k :: 0 <= k < n ==> BlockAt(out, k, stride, data, start, bag, negNum, vocabSize)
  }

  lemma BlockShift(head: seq<Example>, tail: seq<Example>, k: nat, stride: nat)
    requires |head| == stride && (k + 1) * stride <= |tail|
    ensures (k + 2) * stride <= |head + tail|
    ensures (head + tail)[(k + 1) * stride..(k + 2) * stride] == tail[k * stride..(k + 1) * stride]
  {
    assert (k + 1) * stride == stride + k * stride;
    assert (k + 2) * stride == stride + (k + 1) * stride;
  }

  /** Putting the block of window `start` in front of the blocks of the
      following windows gives the blocks from `start` on. */
  lemma {:induction false} BlocksCons(head: seq<Example>, tail: seq<Example>, n: nat, stride: nat, data: seq<nat>, start: nat, bag: nat, negNum: nat, vocabSize: nat)
    requires |head| == stride && WindowBlock(head, data, start, bag, negNum, vocabSize)
    requires Blocks(tail, n, stride, data, start + 1, bag, negNum, vocabSize)
    ensures Blocks(head + tail, n + 1, stride, data, start, bag, negNum, vocabSize)
  {
    var out := head + tail;
    assert |out| == (n + 1) * stride by {
      assert (n + 1) * stride == stride + n * stride;
    }
    forall k | 0 <= k < n + 1
      ensures BlockAt(out, k, stride, data, start, bag, negNum, vocabSize)
    {
      if k == 0 {
        assert out[0..stride] == head;
      } else {
        assert BlockAt(tail, k - 1, stride, data, start + 1, bag, negNum, vocabSize);
        BlockShift(head, tail, k - 1, stride);
      }
    }
  }

  /** The triples one window emits form its block. */
  lemma WindowEmits(data: seq<nat>, i: nat, bag: nat, negNum: nat, vocabSize: nat, negs: seq<nat>)
    requires i + 2 * bag + 1 <= |data|
    requires ValidDraws(negs, vocabSize) && |negs| == negNum
    requires forall k :: 0 <= k < |negs| ==> negs[k] != data[i + bag]
    ensures WindowBlock(Triples(data, i, bag, negs), data, i, bag, negNum, vocabSize)
  {
    var head := Triples(data, i, bag, negs);
    forall j | 1 <= j < |head|
      ensures head[j].span == Span(data, i, bag) && head[j].labelValue == 0
      ensures head[j].target < vocabSize && head[j].target != data[i + bag]
    {
      assert head[j].target == negs[j - 1];
    }
  }

  /** Number of windows from start `i` on. */
  function WindowsFrom(dataLen: nat, corpusLen: nat, bag: nat, i: nat): nat
  {
    if WindowEnd(dataLen, corpusLen, bag) - i > 0 then WindowEnd(dataLen, corpusLen, bag) - i else 0
  }

  /** `r` is what the loop of `build_data` may return from window start
      `i` on: the blocks of the windows from `i` on, and a suffix of the
      draws it was given. */
  ghost predicate Emitted(r: Option<(seq<Example>, seq<nat>)>, draws: seq<nat>, data: seq<nat>, corpusLen: nat, bag: nat, negNum: nat, vocabSize: nat, i: nat)
  {
    r.Some? ==>
      && Blocks(r.value.0, WindowsFrom(|data|, corpusLen, bag, i), 1 + negNum, data, i, bag, negNum, vocabSize)
      && |r.value.1| <= |draws| && r.value.1 == draws[|draws| - |r.value.1|..]
  }

  /** One window step of the loop, unfolded. */
  lemma WindowUnfold(data: seq<nat>, corpusLen: nat, bag: nat, negNum: nat, i: nat,
                     draws: seq<nat>, negs: seq<nat>, used: nat, tail: seq<Example>, rest: seq<nat>)
    requires i < corpusLen && i + 2 * bag + 1 <= |data| && used <= |draws|
    requires SampleNegatives(data[i + bag], negNum, draws) == Some((negs, used))
    requires Windows(data, corpusLen, bag, negNum, i + 1, draws[used..]) == Some((tail, rest))
    ensures Windows(data, corpusLen, bag, negNum, i, draws) == Some((Triples(data, i, bag, negs) + tail, rest))
  {
  }

  /** The block of window `i` in front of the blocks of the windows after
      it, with the draws the later windows leave, is what the loop may
      return from `i` on. */
  lemma WindowStep(data: seq<nat>, corpusLen: nat, bag: nat, negNum: nat, vocabSize: nat, i: nat,
                   draws: seq<nat>, head: seq<Example>, used: nat, tail: seq<Example>, rest: seq<nat>)
    requires i < corpusLen && i + 2 * bag + 1 <= |data| && used <= |draws|
    requires |head| == 1 + negNum && WindowBlock(head, data, i, bag, negNum, vocabSize)
    requires Blocks(tail, WindowsFrom(|data|, corpusLen, bag, i + 1), 1 + negNum, data, i + 1, bag, negNum, vocabSize)
    requires |rest| <= |draws| - used && rest == draws[used..][|draws| - used - |rest|..]
    ensures Emitted(Some((head + tail, rest)), draws, data, corpusLen, bag, negNum, vocabSize, i)
  {
    var n := WindowsFrom(|data|, corpusLen, bag, i + 1);
    assert n + 1 == WindowsFrom(|data|, corpusLen, bag, i);
    BlocksCons(head, tail, n, 1 + negNum, data, i, bag, negNum, vocabSize);
    assert rest == draws[|draws| - |rest|..];
  }

  /** The window at `i` samples its negatives from `draws`: they make up
      its block, and the draws it leaves are still vocabulary ids. */
  lemma SampledBlock(data: seq<nat>, i: nat, bag: nat, negNum: nat, vocabSize: nat, draws: seq<nat>)
    requires i + 2 * bag + 1 <= |data|
    requires ValidDraws(draws, vocabSize)
    requires SampleNegatives(data[i + bag], negNum, draws).Some?
    ensures var (negs, used) := SampleNegatives(data[i + bag], negNum, draws).value;
      && WindowBlock(Triples(data, i, bag, negs), data, i, bag, negNum, vocabSize)
      && ValidDraws(draws[used..], vocabSize)
  {
    var (negs, used) := SampleNegatives(data[i + bag], negNum, draws).value;
    SampleNegativesSome(data[i + bag], negNum, draws);
    var rest := draws[used..];
    assert ValidDraws(rest, vocabSize) by {
      forall k | 0 <= k < |rest|
        ensures rest[k] < vocabSize
      {
        assert rest[k] == draws[used + k];
      }
    }
    assert ValidDraws(draws[..used], vocabSize);
    AcceptedValid(draws[..used], data[i + bag], vocabSize);
    WindowEmits(data, i, bag, negNum, vocabSize, negs);
  }

  /** Every run of the loop from window start `i` that finishes emits the
      blocks of the windows from `i` on. */
  lemma {:induction false} WindowsSpec(data: seq<nat>, corpusLen: nat, bag: nat, negNum: nat, vocabSize: nat, i: nat, draws: seq<nat>)
    requires ValidDraws(draws, vocabSize)
    ensures Emitted(Windows(data, corpusLen, bag, negNum, i, draws), draws, data, corpusLen, bag, negNum, vocabSize, i)
    decreases corpusLen - i
  {
    if i >= corpusLen {
      assert WindowsFrom(|data|, corpusLen, bag, i) == 0;
      assert Blocks([], 0, 1 + negNum, data, i, bag, negNum, vocabSize);
    } else if i <= |data| - 2 * bag - 1 {
      var s := SampleNegatives(data[i + bag], negNum, draws);
      if s.Some? {
        var (negs, used) := s.value;
        SampledBlock(data, i, bag, negNum, vocabSize, draws);
        WindowsSpec(data, corpusLen, bag, negNum, vocabSize, i + 1, draws[used..]);
        var t := Windows(data, corpusLen, bag, negNum, i + 1, draws[used..]);
        if t.Some? {
          WindowUnfold(data, corpusLen, bag, negNum, i, draws, negs, used, t.value.0, t.value.1);
          WindowStep(data, corpusLen, bag, negNum, vocabSize, i, draws, Triples(data, i, bag, negs), used, t.value.0, t.value.1);
        }
      }
    } else {
      assert WindowsFrom(|data|, corpusLen, bag, i) == 0 == WindowsFrom(|data|, corpusLen, bag, i + 1);
      WindowsSpec(data, corpusLen, bag, negNum, vocabSize, i + 1, draws);
    }
  }

  /** Without negatives no draw is needed, and the generator always
      finishes. */
  lemma {:induction false} WindowsWithoutNegatives(data: seq<nat>, corpusLen: nat, bag: nat, i: nat, draws: seq<nat>)
    ensures Windows(data, corpusLen, bag, 0, i, draws).Some?
    decreases corpusLen - i
  {
    if i < corpusLen {
      WindowsWithoutNegatives(data, corpusLen, bag, i + 1, draws);
    }
  }

  /** When no draw is the positive word, every draw is accepted. */
  lemma {:induction false} AllAccepted(draws: seq<nat>, positive: nat)
    requires forall k :: 0 <= k < |draws| ==> draws[k] != positive
    ensures Accepted(draws, positive) == draws
    decreases |draws|
  {
    if |draws| > 0 {
      AllAccepted(draws[1..], positive);
      assert draws == [draws[0]] + draws[1..];
    }
  }

  /** With draws that never hit a center, a window's sampler takes
      exactly the first `need` of them. */
  lemma SampleWithoutCollisions(positive: nat, need: nat, draws: seq<nat>)
    requires forall k :: 0 <= k < |draws| ==> draws[k] != positive
    requires need <= |draws|
    ensures SampleNegatives(positive, need, draws) == Some((draws[..need], need))
  {
    AllAccepted(draws, positive);
    SampleNegativesNone(positive, need, draws);
    SampleNegativesSome(positive, need, draws);
    var (negs, used) := SampleNegatives(positive, need, draws).value;
    AllAccepted(draws[..used], positive);
  }

  /** One window of `WindowsFinish`: a window whose center no draw hits
      takes the first `negNum` draws, and the loop goes on with the rest. */
  lemma WindowFinishStep(data: seq<nat>, corpusLen: nat, bag: nat, negNum: nat, i: nat, draws: seq<nat>)
    requires i < corpusLen && i + 2 * bag + 1 <= |data|
    requires forall k :: 0 <= k < |draws| ==> draws[k] != data[i + bag]
    requires negNum <= |draws|
    requires Windows(data, corpusLen, bag, negNum, i + 1, draws[negNum..]).Some?
    ensures Windows(data, corpusLen, bag, negNum, i, draws).Some?
  {
    SampleWithoutCollisions(data[i + bag], negNum, draws);
  }

  /** A window at `i` leaves one window fewer for `i + 1`. */
  lemma WindowsFromStep(dataLen: nat, corpusLen: nat, bag: nat, negNum: nat, i: nat)
    requires i < corpusLen && i + 2 * bag + 1 <= dataLen
    ensures WindowsFrom(dataLen, corpusLen, bag, i) == WindowsFrom(dataLen, corpusLen, bag, i + 1) + 1
    ensures negNum * WindowsFrom(dataLen, corpusLen, bag, i) == negNum + negNum * WindowsFrom(dataLen, corpusLen, bag, i + 1)
  {
    var n := WindowsFrom(dataLen, corpusLen, bag, i + 1);
    assert negNum * (n + 1) == negNum * n + negNum;
  }

  /** Past the last window start there are no windows left. */
  lemma WindowsFromPast(dataLen: nat, corpusLen: nat, bag: nat, i: nat)
    requires dataLen < i + 2 * bag + 1
    ensures WindowsFrom(dataLen, corpusLen, bag, i) == 0
    ensures WindowsFrom(dataLen, corpusLen, bag, i + 1) == 0
  {
  }

  /** A finished run from a window at `i` sampled that window and
      finished from `i + 1` on the draws left. */
  lemma WindowSampled(data: seq<nat>, corpusLen: nat, bag: nat, negNum: nat, i: nat, draws: seq<nat>)
    requires i < corpusLen && i + 2 * bag + 1 <= |data|
    requires Windows(data, corpusLen, bag, negNum, i, draws).Some?
    ensures var s := SampleNegatives(data[i + bag], negNum, draws);
      s.Some? && Windows(data, corpusLen, bag, negNum, i + 1, draws[s.value.1..]).Some?
  {
  }

  /** The loop of `build_data` finishes from window start `i` on when the
      stream holds `negNum` draws per remaining window and none of them is
      a word of `data`: no draw is ever rejected. */
  lemma {:induction false} WindowsFinish(data: seq<nat>, corpusLen: nat, bag: nat, negNum: nat, i: nat, draws: seq<nat>)
    requires forall k, w :: 0 <= k < |draws| && 0 <= w < |data| ==> draws[k] != data[w]
    requires |draws| >= negNum * WindowsFrom(|data|, corpusLen, bag, i)
    ensures Windows(data, corpusLen, bag, negNum, i, draws).Some?
    decreases corpusLen - i
  {
    if i >= corpusLen {
    } else if i + 2 * bag + 1 <= |data| {
      WindowsFromStep(|data|, corpusLen, bag, negNum, i);
      var rest := draws[negNum..];
      forall k, w | 0 <= k < |rest| && 0 <= w < |data|
        ensures rest[k] != data[w]
      {
        assert rest[k] == draws[negNum + k];
      }
      WindowsFinish(data, corpusLen, bag, negNum, i + 1, rest);
      WindowFinishStep(data, corpusLen, bag, negNum, i, draws);
    } else {
      WindowsFromPast(|data|, corpusLen, bag, i);
      WindowsFinish(data, corpusLen, bag, negNum, i + 1, draws);
    }
  }

  /** Conversely, the loop only finishes from `i` on when the stream
      holds at least `negNum` draws per remaining window: each window
      consumes at least as many draws as it keeps. */
  lemma {:induction false} WindowsNeedDraws(data: seq<nat>, corpusLen: nat, bag: nat, negNum: nat, i: nat, draws: seq<nat>)
    requires Windows(data, corpusLen, bag, negNum, i, draws).Some?
    ensures |draws| >= negNum * WindowsFrom(|data|, corpusLen, bag, i)
    decreases corpusLen - i
  {
    if i >= corpusLen {
    } else if i + 2 * bag + 1 <= |data| {
      WindowsFromStep(|data|, corpusLen, bag, negNum, i);
      WindowSampled(data, corpusLen, bag, negNum, i, draws);
      var c := data[i + bag];
      SampleNegativesSome(c, negNum, draws);
      var (negs, used) := SampleNegatives(c, negNum, draws).value;
      assert negNum <= used;
      WindowsNeedDraws(data, corpusLen, bag, negNum, i + 1, draws[used..]);
    } else {
      WindowsFromPast(|data|, corpusLen, bag, i);
    }
  }

  /** `build_data` finishes only if the stream holds `negative_sample_num`
      draws per window; when no draw is a word of `data`, that is also
      enough, so for such streams it finishes exactly then. */
  lemma BuildDataFinishes(data: seq<nat>, vocabSize: nat, bag: nat, negNum: nat, draws: seq<nat>)
    ensures var windows := if |data| > 2 * bag then |data| - 2 * bag else 0;
      BuildData(data, |data|, vocabSize, bag, negNum, draws).Some? ==> |draws| >= negNum * windows
    ensures var windows := if |data| > 2 * bag then |data| - 2 * bag else 0;
      (forall k, w :: 0 <= k < |draws| && 0 <= w < |data| ==> draws[k] != data[w]) ==>
        (BuildData(data, |data|, vocabSize, bag, negNum, draws).Some? <==> |draws| >= negNum * windows)
  {
    assert WindowsFrom(|data|, |data|, bag, 0) == if |data| > 2 * bag then |data| - 2 * bag else 0;
    if BuildData(data, |data|, vocabSize, bag, negNum, draws).Some? {
      WindowsNeedDraws(data, |data|, bag, negNum, 0, draws);
    }
    if (forall k, w :: 0 <= k < |draws| && 0 <= w < |data| ==> draws[k] != data[w])
      && |draws| >= negNum * WindowsFrom(|data|, |data|, bag, 0) {
      WindowsFinish(data, |data|, bag, negNum, 0, draws);
    }
  }

  /** The triple `e` at place `j` of the block of window `w`: place 0 holds
      the positive triple, the other places negative ones. */
  predicate RowOf(e: Example, w: nat, j: nat, data: seq<nat>, bag: nat, vocabSize: nat)
  {
    && w + 2 * bag + 1 <= |data|
    && e.span == Span(data, w, bag)
    && (j == 0 ==> e.target == data[w + bag] && e.labelValue == 1)
    && (j != 0 ==> e.labelValue == 0 && e.target < vocabSize && e.target != data[w + bag])
  }

  lemma MulMono(a: nat, b: nat, c: nat)
    requires a <= b
    ensures a * c <= b * c
  {
  }

  /** Reads the blocks row by row: row `p` is place `p % stride` of the
      block of window `start + p / stride`. */
  lemma BlocksRows(out: seq<Example>, n: nat, stride: nat, data: seq<nat>, start: nat, bag: nat, negNum: nat, vocabSize: nat)
    requires stride == 1 + negNum
    requires Blocks(out, n, stride, data, start, bag, negNum, vocabSize)
    ensures forall p :: 0 <= p < |out| ==> RowOf(out[p], start + p / stride, p % stride, data, bag, vocabSize)
  {
    forall p | 0 <= p < |out|
      ensures RowOf(out[p], start + p / stride, p % stride, data, bag, vocabSize)
    {
      var w := p / stride;
      var j := p % stride;
      assert p == w * stride + j;
      if w >= n {
        MulMono(n, w, stride);
        assert false;
      }
      assert BlockAt(out, w, stride, data, start, bag, negNum, vocabSize);
      assert (w + 1) * stride == w * stride + stride;
      var block := out[w * stride..(w + 1) * stride];
      assert block[j] == out[p];
    }
  }

  /** `build_data` yields `1+negNum` triples per window, and there are
      `max(0, len(data)-2*bag)` windows when the global corpus and `data`
      have the same length. */
  lemma BuildDataLength(data: seq<nat>, vocabSize: nat, bag: nat, negNum: nat, draws: seq<nat>)
    ensures var r := BuildData(data, |data|, vocabSize, bag, negNum, draws);
      r.Some? ==> |r.value.0| == (if |data| > 2 * bag then |data| - 2 * bag else 0) * (1 + negNum)
  {
    WindowsSpec(data, |data|, bag, negNum, DrawBound(draws), 0, draws);
  }

  /** Every stream is a stream of draws from some vocabulary: one larger
      than its largest draw. */
  function DrawBound(draws: seq<nat>): (n: nat)
    ensures ValidDraws(draws, n)
    ensures forall m: nat :: ValidDraws(draws, m) ==> n <= m
  {
    if |draws| == 0 then 0
    else
      var m := DrawBound(draws[1..]);
      assert forall k :: 1 <= k < |draws| ==> draws[k] == draws[1..][k - 1];
      assert forall b: nat :: ValidDraws(draws, b) ==> ValidDraws(draws[1..], b);
      if draws[0] >= m then draws[0] + 1 else m
  }

  /** What `build_data` produces when the global corpus and `data` have the
      same length. There are `max(0, len(data)-2*bag)` windows and each one
      contributes `1+negNum` consecutive triples. Triple `p` belongs to
      window `w = p / (1+negNum)`, all of whose triples carry `span_w`. It is
      `(span_w, data[w+bag], 1)` when `p % (1+negNum) == 0`, and otherwise
      `(span_w, r, 0)` with `r` a vocabulary id other than `data[w+bag]`.
      Without negatives the generator never needs a draw and always
      finishes. */
  lemma BuildDataSpec(data: seq<nat>, vocabSize: nat, bag: nat, negNum: nat, draws: seq<nat>)
    requires ValidDraws(draws, vocabSize)
    ensures negNum == 0 ==> BuildData(data, |data|, vocabSize, bag, negNum, draws).Some?
    ensures var r := BuildData(data, |data|, vocabSize, bag, negNum, draws);
      r.Some? ==>
        && |r.value.0| == (if |data| > 2 * bag then |data| - 2 * bag else 0) * (1 + negNum)
        && forall p :: 0 <= p < |r.value.0| ==>
             RowOf(r.value.0[p], p / (1 + negNum), p % (1 + negNum), data, bag, vocabSize)
  {
    WindowsSpec(data, |data|, bag, negNum, vocabSize, 0, draws);
    var r := BuildData(data, |data|, vocabSize, bag, negNum, draws);
    if r.Some? {
      var n := WindowsFrom(|data|, |data|, bag, 0);
      assert n == if |data| > 2 * bag then |data| - 2 * bag else 0;
      BlocksRows(r.value.0, n, 1 + negNum, data, 0, bag, negNum, vocabSize);
    }
    if negNum == 0 {
      WindowsWithoutNegatives(data, |data|, bag, 0, draws);
    }
  }

  /** Triple `e` at place `j` of window `w` when `bag_size = 0`: its span
      is empty, and at place 0 it is the positive triple of token `w`. */
  predicate ZeroBagRow(e: Example, w: int, j: int, data: seq<nat>)
  {
    && e.span == []
    && 0 <= w < |data|
    && (j == 0 ==> e == Example([], data[w], 1))
  }

  /** With `bag_size = 0` the test `i <= len(data)-1` admits every token:
      each token is the center of a window with an empty span, and the
      positive triple of window `w` targets token `w`. */
  lemma ZeroBagEveryToken(data: seq<nat>, vocabSize: nat, negNum: nat, draws: seq<nat>)
    requires ValidDraws(draws, vocabSize)
    ensures var r := BuildData(data, |data|, vocabSize, 0, negNum, draws);
      r.Some? ==>
        && |r.value.0| == |data| * (1 + negNum)
        && forall p :: 0 <= p < |r.value.0| ==> ZeroBagRow(r.value.0[p], p / (1 + negNum), p % (1 + negNum), data)
  {
    BuildDataSpec(data, vocabSize, 0, negNum, draws);
    var r := BuildData(data, |data|, vocabSize, 0, negNum, draws);
    if r.Some? {
      assert (if |data| > 2 * 0 then |data| - 2 * 0 else 0) == |data|;
      var out := r.value.0;
      forall p | 0 <= p < |out|
        ensures ZeroBagRow(out[p], p / (1 + negNum), p % (1 + negNum), data)
      {
        ZeroBagRowOf(out[p], p, 1 + negNum, data, vocabSize);
      }
    }
  }

  /** Row `p` of the blocks of `stride` triples, for windows without
      context, is a `ZeroBagRow`. */
  lemma ZeroBagRowOf(e: Example, p: nat, stride: nat, data: seq<nat>, vocabSize: nat)
    requires stride >= 1
    requires RowOf(e, p / stride, p % stride, data, 0, vocabSize)
    ensures ZeroBagRow(e, p / stride, p % stride, data)
  {
    assert |Span(data, p / stride, 0)| == 0;
  }

  /** A stream of draws from a one-word vocabulary never yields a negative
      for that word: the sampler runs the stream dry. */
  lemma {:induction false} OneWordAcceptsNothing(draws: seq<nat>)
    requires ValidDraws(draws, 1)
    ensures Accepted(draws, 0) == []
    decreases |draws|
  {
    if |draws| > 0 {
      assert ValidDraws(draws[1..], 1);
      OneWordAcceptsNothing(draws[1..]);
    }
  }

  /** With a one-word vocabulary and at least one negative per window, the
      rejection loop of the first window never ends (`random.randint(0, 0)`
      always returns the center word): no stream of draws, however long,
      lets `build_data` finish. */
  lemma OneWordVocabularyNeverFinishes(data: seq<nat>, bag: nat, negNum: nat, draws: seq<nat>)
    requires ValidDraws(data, 1) && ValidDraws(draws, 1)
    requires |data| > 2 * bag && negNum > 0
    ensures BuildData(data, |data|, 1, bag, negNum, draws).None?
  {
    OneWordAcceptsNothing(draws);
    assert data[bag] == 0;
    SampleNegativesNone(0, negNum, draws);
  }
}

=== FILE: frequency_sort.dfy ===
/**
 * The sort step of `build_dict`: `sorted(items, key=count, reverse=True)`.
 * Python's sort is stable and `reverse=True` keeps it stable, so entries
 * with equal counts stay in their input order. The model is an insertion
 * sort with exactly that behaviour.
 */
module FrequencySort {
  import opened WordCount

  /** Index of the first occurrence of `e` in `s`, or `|s|` when absent. */
  function Position(s: seq<Entry>, e: Entry): (r: nat)
    ensures r <= |s|
    ensures r < |s| ==> s[r] == e
    ensures forall j :: 0 <= j < r ==> s[j] != e
  {
    if |s| == 0 then 0
    else if s[0] == e then 0
    else 1 + Position(s[1..], e)
  }

  predicate Distinct(s: seq<Entry>)
  {
    forall i, j :: 0 <= i < j < |s| ==> s[i] != s[j]
  }

  /** In a sequence without repetitions, the element at `k` is found at `k`. */
  lemma PositionOfDistinct(s: seq<Entry>, k: nat)
    requires Distinct(s) && k < |s|
    ensures Position(s, s[k]) == k
  {
  }

  /** `a` comes before `b` in a stable descending sort of `input`: it has the
      larger count, or the same count and an earlier place in `input`. */
  predicate Before(a: Entry, b: Entry, input: seq<Entry>)
  {
    a.count > b.count || (a.count == b.count && Position(input, a) < Position(input, b))
  }

  /** `out` lists its elements as a stable descending sort of `input` would. */
  predicate SortedStably(out: seq<Entry>, input: seq<Entry>)
  {
    forall i, j :: 0 <= i < j < |out| ==> Before(out[i], out[j], input)
  }

  /** Places `x` after the entries with larger counts and before the rest. */
  function Insert(x: Entry, sorted: seq<Entry>): (r: seq<Entry>)
    ensures multiset(r) == multiset(sorted) + multiset{x}
    ensures |r| == |sorted| + 1
  {
    if |sorted| == 0 || sorted[0].count <= x.count then [x] + sorted
    else
      assert sorted == [sorted[0]] + sorted[1..];
      [sorted[0]] + Insert(x, sorted[1..])
  }

  /** The list of `sorted(..., key=lambda x: x[1], reverse=True)` (CBOW.py:78):
      the same entries, rearranged. */
  function SortByCount(s: seq<Entry>): (r: seq<Entry>)
    ensures multiset(r) == multiset(s)
    ensures |r| == |s|
  {
    if |s| == 0 then []
    else
      assert s == [s[0]] + s[1..];
      Insert(s[0], SortByCount(s[1..]))
  }

  /** A sequence is stably sorted when its head comes before every other
      element and its tail is stably sorted. */
  lemma SortedCons(h: Entry, t: seq<Entry>, input: seq<Entry>)
    requires SortedStably(t, input)
    requires forall k :: 0 <= k < |t| ==> Before(h, t[k], input)
    ensures SortedStably([h] + t, input)
  {
    var r := [h] + t;
    forall i, j | 0 <= i < j < |r|
      ensures Before(r[i], r[j], input)
    {
      if i == 0 {
        assert r[j] == t[j - 1];
      } else {
        assert r[i] == t[i - 1] && r[j] == t[j - 1];
      }
    }
  }

  lemma SortedTail(t: seq<Entry>, input: seq<Entry>)
    requires |t| > 0 && SortedStably(t, input)
    ensures SortedStably(t[1..], input)
    ensures forall k :: 1 <= k < |t| ==> Before(t[0], t[k], input)
  {
    forall i, j | 0 <= i < j < |t[1..]|
      ensures Before(t[1..][i], t[1..][j], input)
    {
      assert t[1..][i] == t[i + 1] && t[1..][j] == t[j + 1];
    }
  }

  lemma {:induction false} InsertOrdered(x: Entry, t: seq<Entry>, input: seq<Entry>)
    requires SortedStably(t, input)
    requires forall k :: 0 <= k < |t| ==> Position(input, x) < Position(input, t[k])
    ensures SortedStably(Insert(x, t), input)
    decreases |t|
  {
    if |t| == 0 || t[0].count <= x.count {
      assert Insert(x, t) == [x] + t;
      if |t| > 0 {
        SortedTail(t, input);
      }
      forall k | 0 <= k < |t|
        ensures Before(x, t[k], input)
      {
        if k > 0 {
          assert t[k].count <= t[0].count;
        }
      }
      SortedCons(x, t, input);
    } else {
      var t' := t[1..];
      SortedTail(t, input);
      InsertOrdered(x, t', input);
      var rest := Insert(x, t');
      assert Insert(x, t) == [t[0]] + rest;
      forall k | 0 <= k < |rest|
        ensures Before(t[0], rest[k], input)
      {
        var y := rest[k];
        assert y in multiset(rest);
        if y != x {
          assert y in multiset(t');
          var m :| 0 <= m < |t'| && t'[m] == y;
          assert t[m + 1] == y;
        }
      }
      SortedCons(t[0], rest, input);
    }
  }

  lemma {:induction false} SortSuffixOrdered(input: seq<Entry>, m: nat)
    requires Distinct(input) && m <= |input|
    ensures SortedStably(SortByCount(input[m..]), input)
    decreases |input| - m
  {
    var s := input[m..];
    if |s| > 0 {
      SortSuffixOrdered(input, m + 1);
      assert s[1..] == input[m + 1..];
      var t := SortByCount(input[m + 1..]);
      PositionOfDistinct(input, m);
      forall k | 0 <= k < |t|
        ensures Position(input, input[m]) < Position(input, t[k])
      {
        assert t[k] in multiset(input[m + 1..]);
        var q :| 0 <= q < |input[m + 1..]| && input[m + 1..][q] == t[k];
        PositionOfDistinct(input, m + 1 + q);
      }
      InsertOrdered(input[m], t, input);
    }
  }

  /** The sort of `build_dict` is a stable descending sort by count: it is a
      permutation of its input, counts never increase along it, and entries
      of equal count keep their input order. */
  lemma {:induction false} SortByCountSpec(input: seq<Entry>)
    requires Distinct(input)
    ensures multiset(SortByCount(input)) == multiset(input)
    ensures forall i, j :: 0 <= i < j < |input| ==>
      SortByCount(input)[i].count >= SortByCount(input)[j].count
    ensures forall i, j ::
      0 <= i < j < |input| && SortByCount(input)[i].count == SortByCount(input)[j].count ==>
      Position(input, SortByCount(input)[i]) < Position(input, SortByCount(input)[j])
  {
    SortSuffixOrdered(input, 0);
    assert input[0..] == input;
  }
}

=== FILE: pipeline.dfy ===
/**
 * The stages put together as the script runs them at module level: the
 * text is tokenized (CBOW.py:61), the dictionaries are built from the
 * tokens (CBOW.py:93-94), the tokens are encoded (CBOW.py:104-107), the
 * dataset is generated with the default `bag_size=3` and
 * `negative_sample_num=4` (CBOW.py:118, 146), and it is batched with
 * `batch_size=512` and `epoch_num=3` (CBOW.py:275-276).
 */
module Pipeline {
  import opened Common
  import opened Tokenizer
  import opened Vocabulary
  import opened Encoder
  import opened ExampleGen
  import opened RandomShuffle
  import opened Batcher

  const BagSize: nat := 3
  const NegativeSampleNum: nat := 4
  const BatchSize: nat := 512
  const EpochNum: nat := 3

  /** The module-level state after encoding: `corpus`, the dictionaries,
      and `data`. */
  datatype Prepared = Prepared(corpus: seq<string>, vocab: Vocab, data: seq<nat>)

  /** Tokenize, build the dictionaries, encode (CBOW.py:61-107). The state
      the script reaches: `corpus` is the tokenized text, the dictionaries
      are those `build_dict` promises for it, and `data[k]` is the id of
      `corpus[k]`, below `vocab_size`. The encoding never fails, because
      every token is in the dictionary built from the same tokens. */
  function Prepare(text: string): (p: Prepared)
    ensures p.corpus == Tokenize(text)
    ensures IsVocabularyOf(p.vocab, p.corpus)
    ensures |p.data| == |p.corpus|
    ensures forall k :: 0 <= k < |p.data| ==>
      p.data[k] < VocabSize(p.vocab) && p.data[k] in p.vocab.idToWord && p.vocab.idToWord[p.data[k]] == p.corpus[k]
  {
    var corpus := Tokenize(text);
    var v := BuildDict(corpus);
    EncodeWithOwnVocabulary(corpus, v);
    Prepared(corpus, v, Encode(corpus, v.wordToId).value)
  }

  /** `dataset = build_data(data, word2id_dict, word2id_freq)`
      (CBOW.py:146), with the draws of `random.randint(0, vocab_size-1)`.
      When `data` has one id per token, a finished run has five triples per
      window, one window per token but the last six. */
  function Dataset(p: Prepared, draws: seq<nat>): (r: Option<(seq<Example>, seq<nat>)>)
    ensures |p.data| == |p.corpus| && r.Some? ==>
      |r.value.0| == (if |p.data| > 2 * BagSize then |p.data| - 2 * BagSize else 0) * (1 + NegativeSampleNum)
  {
    BuildDataLength(p.data, VocabSize(p.vocab), BagSize, NegativeSampleNum, draws);
    BuildData(p.data, |p.corpus|, VocabSize(p.vocab), BagSize, NegativeSampleNum, draws)
  }

  /** `data` encodes `corpus` token by token through `id2word_dict`. */
  ghost predicate Decodes(data: seq<nat>, corpus: seq<string>, idToWord: map<nat, string>)
  {
    && |data| == |corpus|
    && forall k :: 0 <= k < |data| ==> data[k] in idToWord && idToWord[data[k]] == corpus[k]
  }

  /** No two ids stand for the same word. */
  ghost predicate Injective(idToWord: map<nat, string>)
  {
    forall a, b :: a in idToWord && b in idToWord && idToWord[a] == idToWord[b] ==> a == b
  }

  /** Triple `e` of window `w`, read back as words: its span names the
      `bag` tokens on either side of token `w+bag`; a positive triple
      (`j == 0`) names token `w+bag` and a negative one some other word. */
  ghost predicate WordRow(e: Example, w: nat, j: nat, corpus: seq<string>, idToWord: map<nat, string>, bag: nat)
  {
    && w + 2 * bag + 1 <= |corpus|
    && e.target in idToWord
    && (j == 0 ==> e.labelValue == 1 && idToWord[e.target] == corpus[w + bag])
    && (j != 0 ==> e.labelValue == 0 && idToWord[e.target] != corpus[w + bag])
    && (forall t :: 0 <= t < |e.span| ==> e.span[t] in idToWord)
    && Decode(e.span, idToWord) == corpus[w..w + bag] + corpus[w + bag + 1..w + 2 * bag + 1]
  }

  lemma VocabularyInjective(v: Vocab, corpus: seq<string>)
    requires IsVocabularyOf(v, corpus)
    ensures Injective(v.idToWord)
    ensures forall k: nat :: k < VocabSize(v) ==> k in v.idToWord
  {
    VocabSizeIsWordCount(v, corpus);
    forall a, b | a in v.idToWord && b in v.idToWord && v.idToWord[a] == v.idToWord[b]
      ensures a == b
    {
      assert v.wordToId[v.idToWord[a]] == a;
    }
  }

  /** The span of window `w` decodes to the words around token `w+bag`. */
  lemma SpanWords(data: seq<nat>, corpus: seq<string>, idToWord: map<nat, string>, w: nat, bag: nat)
    requires Decodes(data, corpus, idToWord)
    requires w + 2 * bag + 1 <= |data|
    ensures var span := Span(data, w, bag);
      && (forall t :: 0 <= t < |span| ==> span[t] in idToWord)
      && Decode(span, idToWord) == corpus[w..w + bag] + corpus[w + bag + 1..w + 2 * bag + 1]
  {
    var span := Span(data, w, bag);
    var words := corpus[w..w + bag] + corpus[w + bag + 1..w + 2 * bag + 1];
    forall t | 0 <= t < |span|
      ensures span[t] in idToWord && idToWord[span[t]] == words[t]
    {
      if t < bag {
        assert span[t] == data[w + t];
      } else {
        assert span[t] == data[w + t + 1];
      }
    }
    DecodeAt(span, idToWord);
  }

  /** A generated row, read back as words. */
  lemma RowWords(e: Example, w: nat, j: nat, data: seq<nat>, corpus: seq<string>, idToWord: map<nat, string>, bag: nat, vocabSize: nat)
    requires Decodes(data, corpus, idToWord) && Injective(idToWord)
    requires forall k: nat :: k < vocabSize ==> k in idToWord
    requires RowOf(e, w, j, data, bag, vocabSize)
    ensures WordRow(e, w, j, corpus, idToWord, bag)
  {
    SpanWords(data, corpus, idToWord, w, bag);
    if j != 0 {
      assert data[w + bag] in idToWord;
    }
  }

  /** Generated from ids that decode to `corpus` through an injective
      `id2word_dict` covering every id below `vocabSize`, the triples read
      back as words: triple `q` belongs to the window starting at token
      `w = q / 5`; its span names the three tokens on either side of token
      `w+3`, and its target is that token (`q % 5 == 0`) or another word. */
  lemma {:induction false} DatasetReadsBack(data: seq<nat>, corpus: seq<string>, idToWord: map<nat, string>, vocabSize: nat, draws: seq<nat>)
    requires Decodes(data, corpus, idToWord) && Injective(idToWord)
    requires forall k: nat :: k < vocabSize ==> k in idToWord
    requires ValidDraws(draws, vocabSize)
    ensures var r := BuildData(data, |data|, vocabSize, BagSize, NegativeSampleNum, draws);
      r.Some? ==> forall q :: 0 <= q < |r.value.0| ==>
        WordRow(r.value.0[q], q / 5, q % 5, corpus, idToWord, BagSize)
  {
    var r := BuildData(data, |data|, vocabSize, BagSize, NegativeSampleNum, draws);
    if r.Some? {
      BuildDataSpec(data, vocabSize, BagSize, NegativeSampleNum, draws);
      var out := r.value.0;
      forall q | 0 <= q < |out|
        ensures WordRow(out[q], q / 5, q % 5, corpus, idToWord, BagSize)
      {
        RowWords(out[q], q / 5, q % 5, data, corpus, idToWord, BagSize, vocabSize);
      }
    }
  }

  /** Read back through `id2word_dict`, the dataset speaks about the words
      of the text. Triple `q` belongs to the window starting at token
      `w = q / 5`. Its span names the three tokens before and the three
      tokens after token `w+3`. The positive triple (`q % 5 == 0`) names
      token `w+3` itself; each negative triple names some other word of the
      vocabulary. */
  lemma {:induction false} DatasetWords(text: string, draws: seq<nat>)
    requires ValidDraws(draws, VocabSize(Prepare(text).vocab))
    ensures var p := Prepare(text); var r := Dataset(p, draws);
      r.Some? ==> forall q :: 0 <= q < |r.value.0| ==>
        WordRow(r.value.0[q], q / 5, q % 5, p.corpus, p.vocab.idToWord, BagSize)
  {
    var p := Prepare(text);
    VocabularyInjective(p.vocab, p.corpus);
    assert Decodes(p.data, p.corpus, p.vocab.idToWord);
    DatasetReadsBack(p.data, p.corpus, p.vocab.idToWord, VocabSize(p.vocab), draws);
  }

  /** The whole pipeline: the batches `build_batch(dataset, 512, 3)`
      yields, or `None` when the draws run out while the dataset is being
      generated. */
  function RunPipeline(text: string, draws: seq<nat>, shuffles: seq<seq<nat>>): (r: Option<seq<Batch>>)
    requires ValidDraws(draws, VocabSize(Prepare(text).vocab))
    requires |shuffles| == EpochNum
    requires var d := Dataset(Prepare(text), draws);
      d.Some? ==> forall e :: 0 <= e < |shuffles| ==> ShuffleDraws(|d.value.0|, shuffles[e])
    ensures r.Some? <==> Dataset(Prepare(text), draws).Some?
  {
    match Dataset(Prepare(text), draws)
    case None => None
    case Some((ds, _)) => Some(BuildBatch(ds, BatchSize, EpochNum, shuffles).0)
  }

  /** What training sees. There are `3 * 5 * max(0, N-6)` rows in all,
      `N` being the number of tokens. Every batch but the last holds exactly
      512 rows; the last holds between 1 and 512. Put together, the batches
      are the three shuffled orders of the dataset, one after the other. */
  lemma RunPipelineSpec(text: string, draws: seq<nat>, shuffles: seq<seq<nat>>)
    requires ValidDraws(draws, VocabSize(Prepare(text).vocab))
    requires |shuffles| == EpochNum
    requires var d := Dataset(Prepare(text), draws);
      d.Some? ==> forall e :: 0 <= e < |shuffles| ==> ShuffleDraws(|d.value.0|, shuffles[e])
    ensures var r := RunPipeline(text, draws, shuffles);
      r.Some? ==>
        var rows := BatchRows(r.value);
        var n := |Prepare(text).corpus|;
        && |Concat(rows)| == EpochNum * ((if n > 2 * BagSize then n - 2 * BagSize else 0) * (1 + NegativeSampleNum))
        && (forall k :: 0 <= k < |rows| ==> 0 < |rows[k]| <= BatchSize)
        && (forall k :: 0 <= k < |rows| - 1 ==> |rows[k]| == BatchSize)
        && Concat(rows) == Concat(EpochOrders(Dataset(Prepare(text), draws).value.0, shuffles))
  {
    var p := Prepare(text);
    var d := Dataset(p, draws);
    if d.Some? {
      BuildDataLength(p.data, VocabSize(p.vocab), BagSize, NegativeSampleNum, draws);
      BatchSizes(d.value.0, BatchSize, EpochNum, shuffles);
      assert RunPipeline(text, draws, shuffles) == Some(BuildBatch(d.value.0, BatchSize, EpochNum, shuffles).0);
    }
  }
}

=== FILE: shuffle.dfy ===
/**
 * `random.shuffle(dataset)` (CBOW.py:165), as CPython implements it: the
 * Fisher-Yates walk that, for `i` from `n-1` down to `1`, draws
 * `j = randbelow(i+1)` and swaps positions `i` and `j`. The draws are an
 * explicit sequence `js`, `js[t]` being the draw for `i = n-1-t`.
 */
module RandomShuffle {

  /** `js` holds one draw per step, each in the range `randbelow(i+1)`
      returns for its step's `i`. */
  predicate ShuffleDraws(n: nat, js: seq<nat>)
  {
    && |js| == (if n == 0 then 0 else n - 1)
    && forall t :: 0 <= t < |js| ==> js[t] <= n - 1 - t
  }

  /** `x[i], x[j] = x[j], x[i]`. */
  function Swap<T>(s: seq<T>, i: nat, j: nat): (r: seq<T>)
    requires i < |s| && j < |s|
    ensures |r| == |s|
    ensures r[i] == s[j] && r[j] == s[i]
    ensures forall k :: 0 <= k < |s| && k != i && k != j ==> r[k] == s[k]
  {
    s[i := s[j]][j := s[i]]
  }

  /** A swap rearranges the sequence. */
  lemma SwapPermutes<T>(s: seq<T>, i: nat, j: nat)
    requires i < |s| && j < |s|
    ensures multiset(Swap(s, i, j)) == multiset(s)
  {
    if i < j {
      SwapOrdered(s, i, j);
    } else if j < i {
      assert Swap(s, i, j) == Swap(s, j, i);
      SwapOrdered(s, j, i);
    } else {
      assert Swap(s, i, j) == s;
    }
  }

  lemma SwapOrdered<T>(s: seq<T>, i: nat, j: nat)
    requires i < j < |s|
    ensures multiset(Swap(s, i, j)) == multiset(s)
  {
    var a, b, c := s[..i], s[i + 1..j], s[j + 1..];
    assert s == a + [s[i]] + b + [s[j]] + c;
    assert Swap(s, i, j) == a + [s[j]] + b + [s[i]] + c;
  }

  /** The steps `t, t+1, ...` of the walk: step `t` swaps position
      `|s|-1-t` with `js[t]`. The walk rearranges the sequence: every
      element keeps its number of occurrences. */
  function Steps<T>(s: seq<T>, js: seq<nat>, t: nat): (r: seq<T>)
    requires |js| < |s| || |js| == 0
    requires forall u :: t <= u < |js| ==> js[u] <= |s| - 1 - u
    ensures |r| == |s|
    ensures multiset(r) == multiset(s)
    decreases |js| - t
  {
    if t >= |js| then s
    else
      SwapPermutes(s, |s| - 1 - t, js[t]);
      Steps(Swap(s, |s| - 1 - t, js[t]), js, t + 1)
  }

  /** Once a step has filled position `|s|-1-t`, later steps leave it and
      every position after it alone. */
  lemma {:induction false} StepsKeepTail<T>(s: seq<T>, js: seq<nat>, t: nat, p: nat)
    requires |js| < |s| || |js| == 0
    requires forall u :: t <= u < |js| ==> js[u] <= |s| - 1 - u
    requires |s| - t <= p < |s|
    ensures Steps(s, js, t)[p] == s[p]
    decreases |js| - t
  {
    if t < |js| {
      var s' := Swap(s, |s| - 1 - t, js[t]);
      assert s'[p] == s[p];
      StepsKeepTail(s', js, t + 1, p);
      assert Steps(s, js, t) == Steps(s', js, t + 1);
    }
  }

  /** `random.shuffle` with the draws `js`: a rearrangement of `s` whose
      last element is the one the first draw picks. */
  function Shuffle<T>(s: seq<T>, js: seq<nat>): (r: seq<T>)
    requires ShuffleDraws(|s|, js)
    ensures |r| == |s|
    ensures multiset(r) == multiset(s)
    ensures |s| >= 2 ==> r[|s| - 1] == s[js[0]]
  {
    StepsLast(s, js);
    Steps(s, js, 0)
  }

  /** The first step fixes the last position for good. */
  lemma StepsLast<T>(s: seq<T>, js: seq<nat>)
    requires ShuffleDraws(|s|, js)
    ensures |s| >= 2 ==> Steps(s, js, 0)[|s| - 1] == s[js[0]]
  {
    if |s| >= 2 {
      var s' := Swap(s, |s| - 1, js[0]);
      StepsKeepTail(s', js, 1, |s| - 1);
    }
  }

  /** The draws that make every swap a no-op: `j = i` at every step. */
  function StayDraws(n: nat): (js: seq<nat>)
    ensures ShuffleDraws(n, js)
  {
    seq(if n == 0 then 0 else n - 1, t requires 0 <= t => n - 1 - t)
  }

  lemma {:induction false} StepsStay<T>(s: seq<T>, t: nat)
    requires t <= |StayDraws(|s|)|
    ensures Steps(s, StayDraws(|s|), t) == s
    decreases |StayDraws(|s|)| - t
  {
    var js := StayDraws(|s|);
    if t < |js| {
      assert js[t] == |s| - 1 - t;
      assert Swap(s, |s| - 1 - t, js[t]) == s;
      assert Steps(s, js, t) == Steps(s, js, t + 1);
      StepsStay(s, t + 1);
    }
  }

  /** Every draw sequence the walk accepts may come up, so the identity is
      among the outcomes: drawing `j = i` at every step leaves `s` as it
      was. */
  lemma ShuffleCanKeepOrder<T>(s: seq<T>)
    ensures Shuffle(s, StayDraws(|s|)) == s
  {
    StepsStay(s, 0);
  }
}

=== FILE: tokenizer.dfy ===
/**
 * The tokenizer of the pipeline (`data_preprocess`): strip surrounding
 * whitespace, lower-case, and split on the single space character.
 *
 * Python's `str.strip()` and `str.lower()` are Unicode-aware; here whitespace
 * is the ASCII part of `str.isspace()` and lower-casing is the ASCII map
 * 'A'..'Z' -> 'a'..'z'. Splitting uses an explicit separator, so two
 * consecutive spaces produce an empty token.
 */
module Tokenizer {

  /** The separator `split(" ")` uses. */
  const Space: char := ' '

  /** ASCII characters Python's `str.isspace()` accepts: TAB, LF, VT, FF, CR,
      the four information separators 0x1C..0x1F, and SPACE. */
  predicate IsSpace(c: char)
  {
    (9 <= c as int <= 13) || (28 <= c as int <= 32)
  }

  predicate IsUpper(c: char)
  {
    'A' <= c <= 'Z'
  }

  /** Removes leading whitespace (`lstrip`). */
  function StripStart(s: string): (r: string)
    ensures |r| <= |s| && r == s[|s| - |r|..]
    ensures forall k :: 0 <= k < |s| - |r| ==> IsSpace(s[k])
    ensures |r| == 0 || !IsSpace(r[0])
  {
    if |s| > 0 && IsSpace(s[0]) then StripStart(s[1..]) else s
  }

  /** Removes trailing whitespace (`rstrip`). */
  function StripEnd(s: string): (r: string)
    ensures |r| <= |s| && r == s[..|r|]
    ensures forall k :: |r| <= k < |s| ==> IsSpace(s[k])
    ensures |r| == 0 || !IsSpace(r[|r| - 1])
  {
    if |s| > 0 && IsSpace(s[|s| - 1]) then StripEnd(s[..|s| - 1]) else s
  }

  /** `str.strip()`: leading and trailing whitespace removed; what is left
      neither starts nor ends with whitespace. */
  function Strip(s: string): (r: string)
    ensures |r| <= |s|
    ensures |r| == 0 || (!IsSpace(r[0]) && !IsSpace(r[|r| - 1]))
  {
    var t := StripStart(s);
    var r := StripEnd(t);
    assert |r| > 0 ==> r[0] == t[0];
    r
  }

  /** The stripped text is a slice of `s`, everything cut off on either
      side being whitespace: the longest slice that neither starts nor ends
      with whitespace. */
  lemma {:induction false} StripSpec(s: string)
    ensures var i := |s| - |StripStart(s)|; var r := Strip(s);
      && i + |r| <= |s|
      && r == s[i..i + |r|]
      && (forall k :: 0 <= k < i ==> IsSpace(s[k]))
      && (forall k :: i + |r| <= k < |s| ==> IsSpace(s[k]))
  {
    var t := StripStart(s);
    var r := StripEnd(t);
    var i := |s| - |t|;
    assert t == s[i..];
    assert r == t[..|r|];
    assert r == s[i..i + |r|];
    forall k | i + |r| <= k < |s|
      ensures IsSpace(s[k])
    {
      assert s[k] == t[k - i];
    }
  }

  /** ASCII lower-casing of one character. */
  function LowerChar(c: char): (d: char)
    ensures !IsUpper(d)
    ensures d == c <==> !IsUpper(c)
    ensures IsSpace(d) <==> IsSpace(c)
  {
    if IsUpper(c) then (c as int + 32) as char else c
  }

  /** `str.lower()` over ASCII: each upper-case letter becomes its
      lower-case partner and every other character is kept. */
  function Lower(s: string): (r: string)
    ensures |r| == |s|
    ensures forall k :: 0 <= k < |r| ==> !IsUpper(r[k])
    ensures forall k :: 0 <= k < |r| ==> (r[k] == Space <==> s[k] == Space)
    ensures forall k :: 0 <= k < |s| ==> !IsUpper(s[k]) ==> r[k] == s[k]
  {
    seq(|s|, k requires 0 <= k < |s| => LowerChar(s[k]))
  }

  /** Lower-casing leaves already lower-cased text alone: a text is a fixed
      point exactly when it has no upper-case letter, so lower-casing twice
      is lower-casing once. */
  lemma LowerIdempotent(s: string)
    ensures Lower(s) == s <==> forall k :: 0 <= k < |s| ==> !IsUpper(s[k])
    ensures Lower(Lower(s)) == Lower(s)
  {
    if Lower(s) == s {
      forall k | 0 <= k < |s|
        ensures !IsUpper(s[k])
      {
        assert s[k] == Lower(s)[k];
      }
    }
  }

  /** Spaces in `s` are preserved by lower-casing. */
  lemma LowerKeepsSpaceCount(s: string)
    ensures multiset(Lower(s))[Space] == multiset(s)[Space]
    decreases |s|
  {
    if |s| > 0 {
      var t := s[1..];
      assert s == [s[0]] + t;
      LowerCons(s);
      LowerKeepsSpaceCount(t);
    }
  }

  /** Lower-casing works character by character from the front. */
  lemma LowerCons(s: string)
    requires |s| > 0
    ensures Lower(s) == [LowerChar(s[0])] + Lower(s[1..])
  {
    var r, r' := Lower(s), [LowerChar(s[0])] + Lower(s[1..]);
    forall k | 0 <= k < |s|
      ensures r[k] == r'[k]
    {
      if k > 0 {
        assert r'[k] == Lower(s[1..])[k - 1];
      }
    }
  }

  /** `s.split(" ")` with `cur` the part of the current piece already read. */
  function SplitFrom(s: string, cur: string): (r: seq<string>)
    ensures |r| >= 1
    decreases |s|
  {
    if |s| == 0 then [cur]
    else if s[0] == Space then [cur] + SplitFrom(s[1..], "")
    else SplitFrom(s[1..], cur + [s[0]])
  }

  /** Python's `s.split(" ")`. Splitting inverts joining: joining the
      pieces gives the text back, no piece contains the separator, and
      there is one piece more than there are separators. */
  function Split(s: string): (r: seq<string>)
    ensures Join(r) == s
    ensures forall k :: 0 <= k < |r| ==> Space !in r[k]
    ensures |r| == multiset(s)[Space] + 1
  {
    JoinSplitFrom(s, "");
    SplitFromNoSpace(s, "");
    SplitFromCount(s, "");
    SplitFrom(s, "")
  }

  /** Python's `" ".join(ts)`. */
  function Join(ts: seq<string>): string
  {
    if |ts| == 0 then ""
    else if |ts| == 1 then ts[0]
    else ts[0] + [Space] + Join(ts[1..])
  }

  lemma {:induction false} JoinSplitFrom(s: string, cur: string)
    ensures Join(SplitFrom(s, cur)) == cur + s
    decreases |s|
  {
    if |s| == 0 {
    } else if s[0] == Space {
      JoinSplitFrom(s[1..], "");
      assert s == [Space] + s[1..];
    } else {
      JoinSplitFrom(s[1..], cur + [s[0]]);
      assert s == [s[0]] + s[1..];
    }
  }

  lemma {:induction false} SplitFromNoSpace(s: string, cur: string)
    requires Space !in cur
    ensures forall k :: 0 <= k < |SplitFrom(s, cur)| ==> Space !in SplitFrom(s, cur)[k]
    decreases |s|
  {
    if |s| == 0 {
    } else if s[0] == Space {
      SplitFromNoSpace(s[1..], "");
    } else {
      SplitFromNoSpace(s[1..], cur + [s[0]]);
    }
  }

  lemma {:induction false} SplitFromCount(s: string, cur: string)
    ensures |SplitFrom(s, cur)| == multiset(s)[Space] + 1
    decreases |s|
  {
    if |s| > 0 {
      assert s == [s[0]] + s[1..];
      if s[0] == Space {
        SplitFromCount(s[1..], "");
      } else {
        SplitFromCount(s[1..], cur + [s[0]]);
      }
    }
  }

  /** Every character of every piece comes from `cur` or `s`. */
  lemma {:induction false} SplitFromChars(s: string, cur: string, c: char)
    requires c !in cur && c !in s
    ensures forall k :: 0 <= k < |SplitFrom(s, cur)| ==> c !in SplitFrom(s, cur)[k]
    decreases |s|
  {
    if |s| == 0 {
    } else if s[0] == Space {
      SplitFromChars(s[1..], "", c);
    } else {
      SplitFromChars(s[1..], cur + [s[0]], c);
    }
  }

  /** A piece without a separator is read into the current piece whole. */
  lemma {:induction false} SplitFromPiece(t: string, rest: string, cur: string)
    requires Space !in t
    ensures SplitFrom(t + rest, cur) == SplitFrom(rest, cur + t)
    decreases |t|
  {
    if |t| > 0 {
      assert (t + rest)[0] == t[0];
      assert (t + rest)[1..] == t[1..] + rest;
      SplitFromPiece(t[1..], rest, cur + [t[0]]);
      assert cur + [t[0]] + t[1..] == cur + t;
    } else {
      assert t + rest == rest;
      assert cur + t == cur;
    }
  }

  lemma {:induction false} SplitFromJoin(ts: seq<string>, cur: string)
    requires |ts| >= 1
    requires forall k :: 0 <= k < |ts| ==> Space !in ts[k]
    ensures SplitFrom(Join(ts), cur) == [cur + ts[0]] + ts[1..]
    decreases |ts|
  {
    if |ts| == 1 {
      SplitFromPiece(ts[0], "", cur);
      assert ts[0] + "" == ts[0];
    } else {
      var rest := Join(ts[1..]);
      assert Join(ts) == ts[0] + ([Space] + rest);
      SplitFromPiece(ts[0], [Space] + rest, cur);
      assert ([Space] + rest)[1..] == rest;
      SplitFromJoin(ts[1..], "");
      assert "" + ts[1] == ts[1];
      assert [ts[1]] + ts[2..] == ts[1..];
    }
  }

  /** Joining inverts splitting, for any non-empty list of pieces none of
      which contains the separator. */
  lemma {:induction false} SplitJoin(ts: seq<string>)
    requires |ts| >= 1
    requires forall k :: 0 <= k < |ts| ==> Space !in ts[k]
    ensures Split(Join(ts)) == ts
  {
    SplitFromJoin(ts, "");
    assert "" + ts[0] == ts[0];
    assert [ts[0]] + ts[1..] == ts;
  }

  /** `data_preprocess` (CBOW.py:55-60): `corpus.strip().lower().split(" ")`.
      The tokens, joined by single spaces, are the stripped and lower-cased
      text; none contains a space or an upper-case letter; there is one more
      token than there are spaces in the stripped text, so the list is never
      empty (whitespace-only text gives `[""]`). */
  function Tokenize(text: string): (tokens: seq<string>)
    ensures Join(tokens) == Lower(Strip(text))
    ensures forall k :: 0 <= k < |tokens| ==> Space !in tokens[k]
    ensures |tokens| == multiset(Strip(text))[Space] + 1
    ensures forall k, j :: 0 <= k < |tokens| && 0 <= j < |tokens[k]| ==> !IsUpper(tokens[k][j])
  {
    var lowered := Lower(Strip(text));
    LowerKeepsSpaceCount(Strip(text));
    UpperFree(lowered);
    Split(lowered)
  }

  lemma UpperFree(s: string)
    requires forall k :: 0 <= k < |s| ==> !IsUpper(s[k])
    ensures forall k, j :: 0 <= k < |Split(s)| && 0 <= j < |Split(s)[k]| ==> !IsUpper(Split(s)[k][j])
  {
    forall k, j | 0 <= k < |Split(s)| && 0 <= j < |Split(s)[k]|
      ensures !IsUpper(Split(s)[k][j])
    {
      var c := Split(s)[k][j];
      if IsUpper(c) {
        assert c !in s;
        SplitFromChars(s, "", c);
        assert false;
      }
    }
  }
}

=== FILE: vocabulary.dfy ===
/**
 * `build_dict` (CBOW.py:69-92): count the words of the corpus, sort them by
 * descending frequency, and give them dense ids 0, 1, 2, ... in that order.
 * The three dictionaries it returns are the three maps of `Vocab`.
 */
module Vocabulary {
  import opened WordCount
  import opened FrequencySort

  /** `word2id_freq`, `word2id_dict` and `id2word_dict`. */
  datatype Vocab = Vocab(freq: map<nat, nat>, wordToId: map<string, nat>, idToWord: map<nat, string>)

  /** The id-assignment loop (CBOW.py:87-91) after it has read `sorted`:
      each word gets `curr_id = len(word2id_dict)`, and its count is stored
      under `word2id_dict[word]`. Every word of the list, and no other, gets
      an id. */
  function Assign(sorted: seq<Entry>): (v: Vocab)
    ensures v.wordToId.Keys == set k | 0 <= k < |sorted| :: sorted[k].word
  {
    if |sorted| == 0 then Vocab(map[], map[], map[])
    else
      var v := Assign(sorted[..|sorted| - 1]);
      var e := sorted[|sorted| - 1];
      var currId := |v.wordToId|;
      var wordToId := v.wordToId[e.word := currId];
      Vocab(v.freq[wordToId[e.word] := e.count], wordToId, v.idToWord[currId := e.word])
  }

  /** `v` gives the k-th entry of `sorted` the id k, and has no other ids. */
  ghost predicate Matches(v: Vocab, sorted: seq<Entry>)
  {
    && |v.wordToId| == |sorted|
    && (forall k: nat :: k in v.idToWord <==> k < |sorted|)
    && (forall k: nat :: k in v.freq <==> k < |sorted|)
    && (forall w :: w in v.wordToId ==> v.wordToId[w] < |sorted| && sorted[v.wordToId[w]].word == w)
    && (forall k :: 0 <= k < |sorted| ==>
          && sorted[k].word in v.wordToId
          && v.wordToId[sorted[k].word] == k
          && v.idToWord[k] == sorted[k].word
          && v.freq[k] == sorted[k].count)
  }

  /** Reading one more entry `e` whose word is new gives it the next id. */
  lemma AssignStep(v: Vocab, prefix: seq<Entry>, e: Entry)
    requires Matches(v, prefix)
    requires forall k :: 0 <= k < |prefix| ==> prefix[k].word != e.word
    ensures e.word !in v.wordToId
    ensures Matches(Vocab(v.freq[|prefix| := e.count], v.wordToId[e.word := |prefix|],
                          v.idToWord[|prefix| := e.word]), prefix + [e])
  {
    var n := |prefix|;
    assert e.word !in v.wordToId;
    var v' := Vocab(v.freq[n := e.count], v.wordToId[e.word := n], v.idToWord[n := e.word]);
    assert |v'.wordToId| == n + 1;
    AssignStepWords(v, prefix, e);
    AssignStepIds(v, prefix, e);
  }

  lemma AssignStepWords(v: Vocab, prefix: seq<Entry>, e: Entry)
    requires Matches(v, prefix)
    ensures var w2i := v.wordToId[e.word := |prefix|];
      forall w :: w in w2i ==> w2i[w] < |prefix| + 1 && (prefix + [e])[w2i[w]].word == w
  {
    var sorted := prefix + [e];
    var w2i := v.wordToId[e.word := |prefix|];
    forall w | w in w2i
      ensures w2i[w] < |sorted| && sorted[w2i[w]].word == w
    {
      if w != e.word {
        assert sorted[v.wordToId[w]] == prefix[v.wordToId[w]];
      }
    }
  }

  lemma AssignStepIds(v: Vocab, prefix: seq<Entry>, e: Entry)
    requires Matches(v, prefix)
    requires forall k :: 0 <= k < |prefix| ==> prefix[k].word != e.word
    ensures var n := |prefix|; var sorted := prefix + [e];
      var v' := Vocab(v.freq[n := e.count], v.wordToId[e.word := n], v.idToWord[n := e.word]);
      forall k :: 0 <= k < |sorted| ==>
        && sorted[k].word in v'.wordToId
        && v'.wordToId[sorted[k].word] == k
        && v'.idToWord[k] == sorted[k].word
        && v'.freq[k] == sorted[k].count
  {
    var n := |prefix|;
    var sorted := prefix + [e];
    var v' := Vocab(v.freq[n := e.count], v.wordToId[e.word := n], v.idToWord[n := e.word]);
    forall k | 0 <= k < |sorted|
      ensures sorted[k].word in v'.wordToId && v'.wordToId[sorted[k].word] == k
      ensures v'.idToWord[k] == sorted[k].word && v'.freq[k] == sorted[k].count
    {
      if k < n {
        assert sorted[k] == prefix[k];
      }
    }
  }

  /** With distinct words, `len(word2id_dict)` is the position of the entry
      being read, so the k-th entry of the sorted list gets id k: the three
      maps cover exactly the ids `0..|sorted|-1` and agree with the list. */
  lemma {:induction false} AssignSpec(sorted: seq<Entry>)
    requires DistinctWords(sorted)
    ensures Matches(Assign(sorted), sorted)
    decreases |sorted|
  {
    if |sorted| > 0 {
      var n := |sorted| - 1;
      var prefix := sorted[..n];
      var e := sorted[n];
      assert sorted == prefix + [e];
      assert DistinctWords(prefix);
      AssignSpec(prefix);
      var v := Assign(prefix);
      AssignStep(v, prefix, e);
      assert |v.wordToId| == n;
    } else {
      assert Assign(sorted) == Vocab(map[], map[], map[]);
    }
  }

  /** `build_dict(corpus)` (CBOW.py:69-92). The ids are exactly `0..N-1`,
      N being the number of distinct words of the corpus; `word2id_dict`
      and `id2word_dict` are inverse to each other; `word2id_freq[k]` is the
      number of occurrences of word k; and a smaller id means a higher
      frequency or, at equal frequency, an earlier first occurrence. */
  function BuildDict(corpus: seq<string>): (v: Vocab)
    ensures IsVocabularyOf(v, corpus)
  {
    var s := SortByCount(Tally(corpus));
    SortedTally(corpus);
    AssignSpec(s);
    RankedVocabulary(corpus, s, Assign(s));
    Assign(s)
  }

  /** `a` gets a smaller id than `b`: it occurs more often, or as often and
      is seen first. */
  predicate Outranks(corpus: seq<string>, a: string, b: string)
  {
    && a in corpus && b in corpus
    && (|| Occurrences(corpus, a) > Occurrences(corpus, b)
        || (Occurrences(corpus, a) == Occurrences(corpus, b) && FirstIndex(corpus, a) < FirstIndex(corpus, b)))
  }

  /** `s` lists each word of the corpus once, with its number of
      occurrences, in `Outranks` order. */
  ghost predicate Ranked(corpus: seq<string>, s: seq<Entry>)
  {
    && DistinctWords(s)
    && CoversCorpus(corpus, s)
    && CountsMatch(corpus, s)
    && (forall i, j :: 0 <= i < j < |s| ==> Outranks(corpus, s[i].word, s[j].word))
  }

  /** Every element of a rearrangement of `t` is found in `t`. */
  lemma {:induction false} PositionsInPermutation(t: seq<Entry>, s: seq<Entry>)
    requires multiset(s) == multiset(t)
    ensures forall k :: 0 <= k < |s| ==> Position(t, s[k]) < |t| && t[Position(t, s[k])] == s[k]
  {
    forall k | 0 <= k < |s|
      ensures Position(t, s[k]) < |t|
    {
      assert s[k] in multiset(t);
    }
  }

  /** A rearrangement keeps coverage and counts. */
  lemma PermutationCovers(corpus: seq<string>, t: seq<Entry>, s: seq<Entry>)
    requires multiset(s) == multiset(t)
    requires CoversCorpus(corpus, t) && CountsMatch(corpus, t)
    ensures CoversCorpus(corpus, s) && CountsMatch(corpus, s)
  {
    PositionsInPermutation(t, s);
    forall w | w in corpus
      ensures IndexOfWord(s, w) < |s|
    {
      var k := IndexOfWord(t, w);
      assert t[k] in multiset(s);
      var m :| 0 <= m < |s| && s[m] == t[k];
    }
  }

  /** The stable sort of a first-seen-ordered tally puts the words in
      `Outranks` order. */
  lemma SortedOutranks(corpus: seq<string>, t: seq<Entry>, s: seq<Entry>)
    requires multiset(s) == multiset(t)
    requires DistinctWords(t) && CountsMatch(corpus, t) && FirstSeenOrder(corpus, t)
    requires SortedStably(s, t)
    ensures DistinctWords(s)
    ensures forall i, j :: 0 <= i < j < |s| ==> Outranks(corpus, s[i].word, s[j].word)
  {
    PositionsInPermutation(t, s);
    forall i, j | 0 <= i < j < |s|
      ensures s[i].word != s[j].word
      ensures Outranks(corpus, s[i].word, s[j].word)
    {
      var p, q := Position(t, s[i]), Position(t, s[j]);
      assert Before(s[i], s[j], t);
      assert p != q;
      if p < q {
        assert FirstIndex(corpus, t[p].word) < FirstIndex(corpus, t[q].word);
      } else {
        assert FirstIndex(corpus, t[q].word) < FirstIndex(corpus, t[p].word);
      }
    }
  }

  /** The sorted tally of `build_dict` (CBOW.py:71-78) ranks the words. */
  lemma SortedTally(corpus: seq<string>)
    ensures Ranked(corpus, SortByCount(Tally(corpus)))
  {
    var t := Tally(corpus);
    TallySpec(corpus);
    var s := SortByCount(t);
    SortSuffixOrdered(t, 0);
    assert t[0..] == t;
    PermutationCovers(corpus, t, s);
    SortedOutranks(corpus, t, s);
  }

  /** The maps built from a ranked list, as `build_dict` promises them. */
  ghost predicate IsVocabularyOf(v: Vocab, corpus: seq<string>)
  {
    && (forall w :: w in v.wordToId <==> w in corpus)
    && (forall k: nat :: k in v.idToWord <==> k < |v.wordToId|)
    && (forall k: nat :: k in v.freq <==> k < |v.wordToId|)
    && (forall w :: w in v.wordToId ==> v.wordToId[w] in v.idToWord && v.idToWord[v.wordToId[w]] == w)
    && (forall k :: k in v.idToWord ==> v.idToWord[k] in v.wordToId && v.wordToId[v.idToWord[k]] == k)
    && (forall k :: k in v.freq ==> k in v.idToWord && v.freq[k] == Occurrences(corpus, v.idToWord[k]))
    && (forall k, k' :: 0 <= k < k' < |v.wordToId| ==>
          k in v.idToWord && k' in v.idToWord && Outranks(corpus, v.idToWord[k], v.idToWord[k']))
  }

  lemma RankedWords(corpus: seq<string>, s: seq<Entry>, v: Vocab)
    requires Ranked(corpus, s) && Matches(v, s)
    ensures forall w :: w in v.wordToId <==> w in corpus
  {
    forall w
      ensures w in v.wordToId <==> w in corpus
    {
      if w in corpus {
        assert s[IndexOfWord(s, w)].word == w;
      }
      if w in v.wordToId {
        assert s[v.wordToId[w]].word == w;
      }
    }
  }

  lemma RankedInverse(s: seq<Entry>, v: Vocab)
    requires Matches(v, s)
    ensures forall w :: w in v.wordToId ==> v.wordToId[w] in v.idToWord && v.idToWord[v.wordToId[w]] == w
    ensures forall k :: k in v.idToWord ==> v.idToWord[k] in v.wordToId && v.wordToId[v.idToWord[k]] == k
  {
    forall w | w in v.wordToId
      ensures v.wordToId[w] in v.idToWord && v.idToWord[v.wordToId[w]] == w
    {
      assert s[v.wordToId[w]].word == w;
    }
    forall k | k in v.idToWord
      ensures v.idToWord[k] in v.wordToId && v.wordToId[v.idToWord[k]] == k
    {
      assert k < |s|;
    }
  }

  lemma RankedOrder(corpus: seq<string>, s: seq<Entry>, v: Vocab)
    requires Ranked(corpus, s) && Matches(v, s)
    ensures forall k :: k in v.freq ==> k in v.idToWord && v.freq[k] == Occurrences(corpus, v.idToWord[k])
    ensures forall k, k' :: 0 <= k < k' < |v.wordToId| ==>
      k in v.idToWord && k' in v.idToWord && Outranks(corpus, v.idToWord[k], v.idToWord[k'])
  {
    forall k | k in v.freq
      ensures k in v.idToWord && v.freq[k] == Occurrences(corpus, v.idToWord[k])
    {
      assert k < |s|;
    }
    forall k, k' | 0 <= k < k' < |v.wordToId|
      ensures k in v.idToWord && k' in v.idToWord && Outranks(corpus, v.idToWord[k], v.idToWord[k'])
    {
      assert Outranks(corpus, s[k].word, s[k'].word);
    }
  }

  lemma {:induction false} RankedVocabulary(corpus: seq<string>, s: seq<Entry>, v: Vocab)
    requires Ranked(corpus, s) && Matches(v, s)
    ensures IsVocabularyOf(v, corpus)
  {
    RankedWords(corpus, s, v);
    RankedInverse(s, v);
    RankedOrder(corpus, s, v);
  }

  /** The frequency table of `build_dict` read by id: ids are dense,
      `word2id_freq[k]` counts the occurrences of word k, counts never
      increase with the id, and of two words with the same count the one
      seen first has the smaller id. */
  lemma BuildDictFrequencies(corpus: seq<string>)
    ensures var v := BuildDict(corpus);
      && (forall k: nat :: k in v.freq <==> k in v.idToWord)
      && (forall k :: k in v.freq ==> v.freq[k] == Occurrences(corpus, v.idToWord[k]))
      && (forall k, k' :: k in v.freq && k' in v.freq && k < k' ==> v.freq[k] >= v.freq[k'])
      && (forall k, k' :: k in v.freq && k' in v.freq && k < k' && v.freq[k] == v.freq[k'] ==>
            && v.idToWord[k] in corpus && v.idToWord[k'] in corpus
            && FirstIndex(corpus, v.idToWord[k]) < FirstIndex(corpus, v.idToWord[k']))
  {
    FrequenciesByRank(BuildDict(corpus), corpus);
  }

  lemma FrequenciesByRank(v: Vocab, corpus: seq<string>)
    requires forall k :: k in v.freq ==> k in v.idToWord && v.freq[k] == Occurrences(corpus, v.idToWord[k])
    requires forall k: nat :: k in v.freq <==> k < |v.wordToId|
    requires forall k, k' :: 0 <= k < k' < |v.wordToId| ==>
      k in v.idToWord && k' in v.idToWord && Outranks(corpus, v.idToWord[k], v.idToWord[k'])
    ensures forall k, k' :: k in v.freq && k' in v.freq && k < k' ==> v.freq[k] >= v.freq[k']
    ensures forall k, k' :: k in v.freq && k' in v.freq && k < k' && v.freq[k] == v.freq[k'] ==>
      && v.idToWord[k] in corpus && v.idToWord[k'] in corpus
      && FirstIndex(corpus, v.idToWord[k]) < FirstIndex(corpus, v.idToWord[k'])
  {
    forall k, k' | k in v.freq && k' in v.freq && k < k'
      ensures v.freq[k] >= v.freq[k']
      ensures v.freq[k] == v.freq[k'] ==>
        && v.idToWord[k] in corpus && v.idToWord[k'] in corpus
        && FirstIndex(corpus, v.idToWord[k]) < FirstIndex(corpus, v.idToWord[k'])
    {
      assert Outranks(corpus, v.idToWord[k], v.idToWord[k']);
    }
  }

  /** `vocab_size = len(word2id_freq)` (CBOW.py:94). */
  function VocabSize(v: Vocab): nat
  {
    |v.freq|
  }

  /** The ids `0..n-1`. */
  function IdRange(n: nat): (ids: set<nat>)
    ensures forall k: nat :: k in ids <==> k < n
    ensures |ids| == n
  {
    if n == 0 then {} else IdRange(n - 1) + {n - 1}
  }

  /** A map whose keys are exactly the ids `0..n-1` has `n` entries. */
  lemma DenseKeys<T>(m: map<nat, T>, n: nat)
    requires forall k: nat :: k in m <==> k < n
    ensures |m| == n
  {
    assert m.Keys == IdRange(n);
  }

  /** The vocabulary size is the number of distinct words of the corpus.
      Of `IsVocabularyOf` it needs only that the words are the corpus words
      and that the ids of both other dictionaries are `0..N-1`. */
  lemma {:induction false} VocabSizeIsWordCount(v: Vocab, corpus: seq<string>)
    requires forall w :: w in v.wordToId <==> w in corpus
    requires forall k: nat :: k in v.idToWord <==> k < |v.wordToId|
    requires forall k: nat :: k in v.freq <==> k < |v.wordToId|
    ensures VocabSize(v) == |v.wordToId| == |v.idToWord|
    ensures v.wordToId.Keys == set i | 0 <= i < |corpus| :: corpus[i]
  {
    DenseKeys(v.freq, |v.wordToId|);
    DenseKeys(v.idToWord, |v.wordToId|);
  }
}

=== FILE: word_count.dfy ===
/**
 * The counting pass of `build_dict`: one walk over the corpus that records,
 * in an insertion-ordered dictionary, how often every distinct word occurs.
 * The dictionary is modelled as a sequence of entries in insertion order,
 * which is the order in which Python iterates over it.
 */
module WordCount {

  /** One `(word, count)` item of the frequency dictionary. */
  datatype Entry = Entry(word: string, count: nat)

  /** How often `w` occurs in `corpus`. */
  function Occurrences(corpus: seq<string>, w: string): nat
  {
    multiset(corpus)[w]
  }

  /** Index of the first occurrence of `w` in `corpus`. */
  function FirstIndex(corpus: seq<string>, w: string): (r: nat)
    requires w in corpus
    ensures r < |corpus| && corpus[r] == w
    ensures w !in corpus[..r]
  {
    if corpus[0] == w then 0
    else
      assert w in corpus[1..];
      var r := 1 + FirstIndex(corpus[1..], w);
      assert corpus[..r] == [corpus[0]] + corpus[1..][..r - 1];
      r
  }

  /** The first occurrence is the only index that holds `w` with no `w`
      before it. */
  lemma FirstIndexUnique(corpus: seq<string>, w: string, r: nat)
    requires r < |corpus| && corpus[r] == w && w !in corpus[..r]
    ensures FirstIndex(corpus, w) == r
  {
  }

  /** Appending a word does not move the first occurrence of an earlier one. */
  lemma FirstIndexAppend(corpus: seq<string>, x: string, w: string)
    requires w in corpus
    ensures FirstIndex(corpus + [x], w) == FirstIndex(corpus, w)
  {
    var f := FirstIndex(corpus, w);
    assert (corpus + [x])[..f] == corpus[..f];
    FirstIndexUnique(corpus + [x], w, f);
  }

  /** A word new to `corpus` is first seen at the position it is appended. */
  lemma FirstIndexNew(corpus: seq<string>, x: string)
    requires x !in corpus
    ensures FirstIndex(corpus + [x], x) == |corpus|
  {
    assert (corpus + [x])[..|corpus|] == corpus;
    FirstIndexUnique(corpus + [x], x, |corpus|);
  }

  /** Position of the entry for `w` (or `|entries|` when there is none): the
      dictionary lookup `word in word_freq_dict`. */
  function IndexOfWord(entries: seq<Entry>, w: string): (k: nat)
    ensures k <= |entries|
    ensures k < |entries| ==> entries[k].word == w
    ensures forall j :: 0 <= j < k ==> entries[j].word != w
  {
    if |entries| == 0 then 0
    else if entries[0].word == w then 0
    else 1 + IndexOfWord(entries[1..], w)
  }

  /** No word has two entries (dictionary keys are unique). */
  predicate DistinctWords(entries: seq<Entry>)
  {
    forall i, j :: 0 <= i < j < |entries| ==> entries[i].word != entries[j].word
  }

  /** The lookup of `w` finds the entry at `k` when `k` is the first entry
      for `w`. */
  lemma IndexOfWordAt(entries: seq<Entry>, w: string, k: nat)
    requires k < |entries| && entries[k].word == w
    requires forall j :: 0 <= j < k ==> entries[j].word != w
    ensures IndexOfWord(entries, w) == k
  {
  }

  /** One iteration of the counting loop (CBOW.py:73-75): a word not yet in
      the dictionary is inserted at the end with count 0, then its count is
      incremented. Afterwards `w` has an entry holding one more than its
      count before (0 when it had none); an entry is added, at the end, only
      when `w` had none; every other entry keeps its word, count and place;
      and keys stay unique. */
  function Bump(entries: seq<Entry>, w: string): (r: seq<Entry>)
    ensures IndexOfWord(r, w) < |r|
    ensures var before := IndexOfWord(entries, w);
      r[IndexOfWord(r, w)].count == 1 + (if before < |entries| then entries[before].count else 0)
    ensures |r| == |entries| + (if IndexOfWord(entries, w) < |entries| then 0 else 1)
    ensures forall k :: 0 <= k < |entries| ==> r[k].word == entries[k].word
    ensures forall k :: 0 <= k < |entries| && entries[k].word != w ==> r[k] == entries[k]
    ensures DistinctWords(entries) ==> DistinctWords(r)
  {
    var k := IndexOfWord(entries, w);
    if k == |entries| then
      var r := entries + [Entry(w, 0 + 1)];
      IndexOfWordAt(r, w, k);
      r
    else
      var r := entries[k := Entry(w, entries[k].count + 1)];
      IndexOfWordAt(r, w, k);
      r
  }

  /** The frequency dictionary after the counting loop (CBOW.py:71-75) has
      read all of `corpus`: its keys are unique words of the corpus. */
  function Tally(corpus: seq<string>): (r: seq<Entry>)
    ensures DistinctWords(r)
    ensures forall k :: 0 <= k < |r| ==> r[k].word in corpus
  {
    if |corpus| == 0 then []
    else
      var prefix := corpus[..|corpus| - 1];
      assert corpus == prefix + [corpus[|corpus| - 1]];
      Bump(Tally(prefix), corpus[|corpus| - 1])
  }

  /** The dictionary holds an entry for `w` exactly when `w` occurs in the
      corpus, and no word has two entries. */
  lemma {:induction false} TallyKeys(corpus: seq<string>)
    ensures DistinctWords(Tally(corpus))
    ensures forall k :: 0 <= k < |Tally(corpus)| ==> Tally(corpus)[k].word in corpus
    ensures forall w :: IndexOfWord(Tally(corpus), w) < |Tally(corpus)| <==> w in corpus
    decreases |corpus|
  {
    if |corpus| > 0 {
      var prefix := corpus[..|corpus| - 1];
      var w := corpus[|corpus| - 1];
      assert corpus == prefix + [w];
      TallyKeys(prefix);
      var t := Tally(prefix);
      var t' := Tally(corpus);
      BumpKeys(t, prefix, w);
    }
  }

  /** One step of `TallyKeys`: bumping `w` adds it to the keys. */
  lemma BumpKeys(t: seq<Entry>, prefix: seq<string>, w: string)
    requires forall v :: IndexOfWord(t, v) < |t| <==> v in prefix
    ensures forall v :: IndexOfWord(Bump(t, w), v) < |Bump(t, w)| <==> v in prefix + [w]
  {
    var t' := Bump(t, w);
    forall v
      ensures IndexOfWord(t', v) < |t'| <==> v in prefix + [w]
    {
      var kv := IndexOfWord(t, v);
      if kv < |t| {
        assert t'[kv].word == v;
      } else if v == w {
        assert t'[|t'| - 1].word == v;
      } else {
        assert forall j :: 0 <= j < |t'| ==> t'[j].word != v;
      }
    }
  }

  /** Every entry holds the number of occurrences of its word. */
  lemma {:induction false} TallyCounts(corpus: seq<string>)
    ensures forall k :: 0 <= k < |Tally(corpus)| ==>
      Tally(corpus)[k].count == Occurrences(corpus, Tally(corpus)[k].word)
    decreases |corpus|
  {
    if |corpus| > 0 {
      var prefix := corpus[..|corpus| - 1];
      var w := corpus[|corpus| - 1];
      assert corpus == prefix + [w];
      TallyCounts(prefix);
      TallyKeys(prefix);
      var t := Tally(prefix);
      var t' := Tally(corpus);
      var k := IndexOfWord(t, w);
      assert multiset(corpus) == multiset(prefix) + multiset{w};
      if k == |t| {
        assert w !in prefix;
        assert Occurrences(prefix, w) == 0;
      }
    }
  }

  /** Entries are listed in the order in which their words are first seen. */
  lemma {:induction false} TallyOrder(corpus: seq<string>)
    ensures forall i, j :: 0 <= i < j < |Tally(corpus)| ==>
      && Tally(corpus)[i].word in corpus && Tally(corpus)[j].word in corpus
      && FirstIndex(corpus, Tally(corpus)[i].word) < FirstIndex(corpus, Tally(corpus)[j].word)
    decreases |corpus|
  {
    if |corpus| > 0 {
      var prefix := corpus[..|corpus| - 1];
      var w := corpus[|corpus| - 1];
      assert corpus == prefix + [w];
      TallyOrder(prefix);
      TallyKeys(prefix);
      TallyKeys(corpus);
      var t := Tally(prefix);
      var t' := Tally(corpus);
      var k := IndexOfWord(t, w);
      forall j | 0 <= j < |t|
        ensures t'[j].word == t[j].word
        ensures FirstIndex(corpus, t'[j].word) == FirstIndex(prefix, t[j].word)
      {
        FirstIndexAppend(prefix, w, t[j].word);
      }
      if k == |t| {
        FirstIndexNew(prefix, w);
      }
      forall i, j | 0 <= i < j < |t'|
        ensures t'[i].word in corpus && t'[j].word in corpus
        ensures FirstIndex(corpus, t'[i].word) < FirstIndex(corpus, t'[j].word)
      {
        if j < |t| {
          assert FirstIndex(prefix, t[i].word) < FirstIndex(prefix, t[j].word);
        } else {
          assert t'[j].word == w;
          assert FirstIndex(prefix, t[i].word) < |prefix|;
        }
      }
      assert t' == Tally(corpus);
    } else {
      assert Tally(corpus) == [];
    }
  }

  /** Every entry is a word of the corpus and every word of the corpus has
      an entry. */
  ghost predicate CoversCorpus(corpus: seq<string>, entries: seq<Entry>)
  {
    && (forall k :: 0 <= k < |entries| ==> entries[k].word in corpus)
    && (forall w :: w in corpus ==> IndexOfWord(entries, w) < |entries|)
  }

  /** Every entry holds the number of occurrences of its word. */
  ghost predicate CountsMatch(corpus: seq<string>, entries: seq<Entry>)
  {
    forall k :: 0 <= k < |entries| ==> entries[k].count == Occurrences(corpus, entries[k].word)
  }

  /** Entries are listed in the order in which their words are first seen. */
  ghost predicate FirstSeenOrder(corpus: seq<string>, entries: seq<Entry>)
  {
    forall i, j :: 0 <= i < j < |entries| ==>
      && entries[i].word in corpus && entries[j].word in corpus
      && FirstIndex(corpus, entries[i].word) < FirstIndex(corpus, entries[j].word)
  }

  /** What the counting loop computes: one entry per distinct word of the
      corpus and no other, each holding that word's number of occurrences,
      listed in the order in which the words are first seen. */
  lemma TallySpec(corpus: seq<string>)
    ensures DistinctWords(Tally(corpus))
    ensures CoversCorpus(corpus, Tally(corpus))
    ensures CountsMatch(corpus, Tally(corpus))
    ensures FirstSeenOrder(corpus, Tally(corpus))
  {
    TallyKeys(corpus);
    TallyCounts(corpus);
    TallyOrder(corpus);
  }
}
